=== FILE: README.md ===
# Web-app packager: a Dafny model of its decision logic

The application is an Electron desktop tool. It turns a web site into a portable Windows app: the user types a name and a URL, picks a window mode and an optional frameless titlebar, and clicks Generate. The main process then does the following:
- asks for a target folder;
- finds an icon (the user's own, the 256px favicon proxy, or the site's `/favicon.ico`);
- writes a small Electron project into a temporary directory;
- runs `npm install` and `electron-builder`;
- copies the resulting `.exe` into the chosen folder.

The renderer shows a progress log and a final result. Two small dialogs edit the custom window size and the titlebar buttons.

This project models the decision logic of that tool as pure Dafny functions over immutable datatypes, and proves properties about it. One module per concern:

| module | file | what it models |
|---|---|---|
| `Outcomes`, `Binary`, `Sets` | outcomes.dfy | `Option` (undefined/null), `Result` (a promise that resolves or rejects), byte buffers, a set-size fact |
| `Text` | text.dfy | `trim`, ASCII `toLowerCase`, `startsWith`, `join`, `String(n)`, `parseInt(_, 10)` |
| `Download` | download.dfy | the redirect follower of `httpDownloadBuffer` over an abstract server map |
| `Icon` | icon.dfy | `getFaviconIco` and the icon choice with its progress line |
| `Naming` | naming.dfy | product name, package name and application id |
| `Artifact` | artifact.dfy | `.exe` selection in `dist` and the reported folder |
| `ErrBuffer` | errbuffer.dfy | the bounded stderr buffer `pushErr` |
| `Orchestrator` | orchestrator.dfy | `generate-app` / `generation-cancel` as a state machine with the shared flags |
| `GeneratedTitlebar` | generated_titlebar.dfy | button image files and `buttonHtml` of a frameless generated app |
| `Settings` | settings.dfy | window options, titlebar settings, build configuration |
| `UrlInput` | url_input.dfy | `looksLikeDomain`, `normalizeUrl`, `ensureSchemeInInput` |
| `AppName` | app_name.dfy | `sanitizeAppNameInput` and the caret arithmetic of the name field |
| `Html` | html.dfy | `escapeHtml` and the decoding a browser applies |
| `GenerateForm` | generate_form.dfy | the Generate click, the frame select, the reset on completion |
| `ProgressLog` | progress_log.dfy | translating and filtering `build-progress` lines |
| `DoneView` | done_view.dfy | the modal after `generation-done` |
| `FrameSummary` | summary.dfy | the titlebar summary line |
| `TitlebarDialog` | titlebar_dialog.dfy | the titlebar settings dialog |
| `CustomDialog` | custom_dialog.dfy | the custom window-size dialog |

The state machine keeps the two module-level flags `isGenerating` and `abortedByUser`, which every invocation of `generate-app` shares. Each accepted invocation opens its own session: its stage, chosen folder, temporary directory and stderr buffer. The folder picker, the end of each child process and every stderr chunk arrive as events that carry their outcome.

## Model

| member | source | states |
|---|---|---|
| Download.Follow | main.js:15-38 | no URL is requested twice; consecutive requests follow a 3xx redirect with a location; a body comes only from a final 200; a repeated location fails as a redirect loop |
| Download.FollowBadUrl | main.js:15-25 | the download fails because `https.get` refused a URL exactly when the last URL it reached is not an absolute https URL, and the error names that URL |
| Download.FollowStep | main.js:23-30 | one step: 200 yields its body, a 3xx with a location is followed, any other status (a 3xx without location included) fails naming that status, a network error rejects |
| Download.RequestBound | main.js:17-20 | the follower terminates after at most one request per URL the server knows, plus one |
| Download.AsWrittenHangsOnlyOnBadRedirect | main.js:19-25 | the code as written never settles exactly when a followed redirect location is not an absolute https URL (`https.get` throws inside the response callback); otherwise it settles with the same result as the corrected follower |
| Download.HttpNeverFetched | main.js:15-20 | a URL starting with `http://` is refused before any request: `https.get` throws inside the promise executor, so the download rejects at once |
| Download.RelativeRedirectHangs | main.js:21-25 | a favicon URL answering 301 with the relative location `/static/favicon.ico`: as written the download never settles, corrected it rejects |
| Icon.GetFaviconIco | main.js:41-74 | the proxy URL is tried first and its icon is used exactly when it downloads with content and converts; `/favicon.ico` is used exactly when that step failed, the site's file has content and writing it succeeds; otherwise nothing is found; an unparsable URL fetches nothing |
| Icon.HttpOriginNeverDirect | main.js:62-69 | a site served over `http:` never gets its icon from its own `/favicon.ico`, since that download is refused |
| Icon.FailedDirectWriteMeansNoIcon | main.js:62-69 | when the proxy step fails and writing the site's favicon throws, the error is swallowed and the no-icon message follows |
| Icon.SelectIcon | main.js:341-350 | a user buffer with content always wins and no favicon is fetched; an empty or missing buffer runs the lookup, and the icon is then exactly the lookup's find (its source and bytes), or none when it finds nothing |
| Icon.IconMessagePriority | main.js:353-359 | exactly one of the three icon messages, in the priority custom, favicon, none |
| Icon.EmptyBufferFallsThrough | main.js:344 | a present but empty icon buffer counts as absent |
| Naming.ProductName | main.js:506 | the product name is the name, or "WebApp" when it is empty |
| Naming.PackageName | main.js:507 | the package name has only `[a-z0-9-]`, the length of the lower-cased name, keeps every allowed character in place and puts `-` in place of every other one |
| Naming.AppId | main.js:508 | the id is `com.generated.` followed only by `[a-z0-9]`, in order, drawn from the lower-cased name, keeping every letter and digit of it as often as it occurs |
| Naming.KeepAlnumKeepsAll | main.js:508 | removing `[^a-z0-9]` keeps every letter and digit as often as it occurs |
| Naming.PackageNameIdempotent | main.js:507 | a name already in package form is its own package name; deriving twice changes nothing |
| Naming.AppIdFromPackageName | main.js:507-508 | the id equals the package name with its dashes dropped |
| Artifact.FirstExe | main.js:797-798 | the first entry ending in `.exe`, and none exactly when no entry ends so |
| Artifact.Extract | main.js:793-815 | the first `.exe` of `dist` is copied under its own name into the target folder; with no `dist` or no `.exe` nothing is copied and no path is reported |
| Artifact.FolderIsTargetDir | main.js:812 | the reported folder is the chosen target folder when no `.exe` was found, and also when one was, for a target that is a drive root or a path without trailing separator |
| Artifact.DriveRootTarget | main.js:799-812 | with the drive root `D:\` as target the artifact path is `D:\App.exe`, with one separator, and the folder is the root itself |
| ErrBuffer.PushErr | main.js:746-750 | the new chunk is last; the buffer never exceeds 200 and drops its oldest chunk when full |
| ErrBuffer.PushAllKeepsNewest | main.js:746-750 | after any series of chunks the buffer is exactly the newest 200 of everything pushed |
| Orchestrator.StageFailure | main.js:759-766 | a failing stage reports an abort carrying `abortedByUser` and "tool exit code N", a blank line, then the buffered stderr |
| Orchestrator.InitialInv | main.js:316-319 | the invariant holds at start-up |
| Orchestrator.StepInv | main.js:316-850 | every event preserves the invariant: ids below the counter, every buffer within 200, the flag set only while the newest session picks or installs |
| Orchestrator.RunInv | main.js:316-850 | the invariant holds after any series of events |
| Orchestrator.GenerateWhileGeneratingIsNoOp | main.js:317 | `generate-app` while the flag is set does nothing |
| Orchestrator.GenerateStartsSession | main.js:318-319 | an accepted request sets the flag, clears the user-abort flag and opens a fresh session |
| Orchestrator.PickerCancelReportsUserAbort | main.js:330-333 | a cancelled folder picker clears the flag and reports a user abort, with no progress line |
| Orchestrator.PickerChosenStartsInstall | main.js:335-744 | a chosen folder emits one icon line then the install line, and starts installing with an empty buffer |
| Orchestrator.CancelWhenIdle | main.js:836-838 | a cancel with no build reports a user abort at once and changes nothing |
| Orchestrator.CancelWhenActive | main.js:839-843 | a cancel during a build sets the user-abort flag and, while it awaits the kill and the clean-up, keeps the flag set, sends nothing and drops a new request; the running children are left alone |
| Orchestrator.CancelFinishes | main.js:844-848 | when a pending cancel settles, the flag is cleared and a user abort is reported |
| Orchestrator.CancelOutlivesItsBuild | main.js:758-848 | a killed install reports a user-aborted failure and clears the flag (line 760); a request then accepted loses its flag to the cancel's `finally` while it still picks its folder |
| Orchestrator.NonZeroExitReports | main.js:758-792 | a non-zero exit of either stage ends its session and reports the failure text with `userAborted` equal to the flag |
| Orchestrator.InstallSuccessStartsPackaging | main.js:772-823 | a successful install announces the product's build, empties the buffer, and leaves the flag cleared while packaging runs |
| Orchestrator.PackageSuccessReports | main.js:781-815 | a successful packaging run clears the flag and reports success with the copied `.exe` when there is one and the chosen folder; when listing `dist` or copying throws, nothing is reported |
| Orchestrator.PackagingIsNotSingleFlight | main.js:772-838 | while packaging runs a cancel only acknowledges and a second request is accepted; the packaging session survives both |
| GeneratedTitlebar.CustomButtons | main.js:548-561 | image files are written only in custom mode, one per chosen role, named `btn-<role>.` plus the extension |
| GeneratedTitlebar.ButtonHtml | main.js:566-588 | SVG outside custom mode; an image whenever the role has one; a single maximize/restore button starting on the maximize image, else the restore image |
| GeneratedTitlebar.TitlebarButtons | main.js:648-657 | back, forward, reload on the left; minimize only when minimizable, one maximize button only when maximizable, and close, in that order, on the right |
| GeneratedTitlebar.MaxButtonImage | main.js:708-720 | a maximized window prefers the restore image and a restored one the maximize image; each falls back to the other, then to the current image |
| GeneratedTitlebar.StartImageIsRestoredImage | main.js:572-720 | the button's first image is what a restored window shows |
| GeneratedTitlebar.ChosenAssetsShowImages | main.js:551-582 | every role with a chosen asset shows the file written for it |
| Text.TrimFixedPoint | renderer/renderer.js:294 | `trim` leaves exactly the strings without white space at either end alone |
| Text.ParseIntOfIntToString | renderer/custom-settings.js:101-113 | a number written into a field parses back to itself |
| UrlInput.LooksLikeDomainCorrect | renderer/renderer.js:290-292 | the scan decides exactly the domain regular expression: a leading `www.`, or label characters, a dot and two or more letters ending the text or meeting a slash |
| UrlInput.NormalizeUrl | renderer/renderer.js:306-312 | the result is trimmed, empty exactly for blank input, and either the trimmed input or `https://` plus it without leading slashes |
| UrlInput.NormalizeUrlScheme | renderer/renderer.js:306-312 | the result has an http(s) scheme exactly when the trimmed input had one or looked like a domain |
| UrlInput.NormalizeUrlIdempotent | renderer/renderer.js:306-312 | normalising twice equals normalising once |
| UrlInput.EnsureSchemeInInput | renderer/renderer.js:293-305 | the field changes exactly for non-empty, scheme-less, domain-looking text; it then gains a scheme and the selection moves by 8 |
| UrlInput.EnsureSchemeAgreesWithNormalize | renderer/renderer.js:293-312 | the value typed into the field is the one `normalizeUrl` would give |
| AppName.Sanitize | renderer/renderer.js:320-329 | no forbidden file-name character and no trailing dot or space remain, and the result is the filtered text with only a final run of dots and spaces cut |
| AppName.RemoveInvalidKeepsAllowed | renderer/renderer.js:324 | the filter keeps every allowed character as often as it occurs |
| AppName.SanitizeKeepsAllowed | renderer/renderer.js:320-329 | every allowed character other than a dot or a space survives sanitising as often as it was typed |
| AppName.SanitizeIsSubsequence | renderer/renderer.js:320-329 | the result keeps characters of the input in order and adds none |
| AppName.SanitizeIdempotent | renderer/renderer.js:320-329 | a clean name is left alone, so sanitising twice equals sanitising once |
| AppName.OnNameInput | renderer/renderer.js:332-351 | the field holds the sanitised text; the selection moves back by the number of removed characters, floored at 0, and only when something changed; validity clears exactly for a non-empty name |
| Html.EscapeHtml | renderer/renderer.js:841-845 | no raw `<`, `>`, `"` or `'` remains |
| Html.UnescapeEscape | renderer/renderer.js:841-845 | the escaped text reads back as the original, character for character |
| Html.EscapePlain | renderer/renderer.js:841-845 | text without special characters is unchanged |
| GenerateForm.OnGenerateClick | renderer/renderer.js:604-668 | a click during a build is ignored; empty name, empty URL, a URL without http(s) and a custom mode with no saved size are refused; otherwise the config carries the trimmed sanitised name, the normalised URL, the mode's preset, a titlebar exactly when frameless and the custom icon |
| GenerateForm.SubmittedNameIsFileSafe | renderer/renderer.js:609-618 | the name sent is non-empty, trimmed and free of forbidden file-name characters |
| GenerateForm.SubmitOnce | renderer/renderer.js:605-664 | a second click while a build runs does nothing |
| GenerateForm.InvalidUrlExactly | renderer/renderer.js:620-632 | the URL is refused as invalid exactly when the click is not ignored, the name passes, the URL is not blank, and its trimmed text neither has an http(s) scheme nor looks like a domain |
| GenerateForm.PresetsByMode | renderer/renderer.js:642-653 | once name and URL pass, mobile is 375 by 670 and only minimizable and the default is 1024 by 768 with every flag; the custom mode is refused exactly when name and URL pass and no size is saved |
| GenerateForm.FramelessTitlebar | renderer/renderer.js:655-659 | a frameless build sends the saved titlebar, or SVG buttons in the page theme with the default grey |
| GenerateForm.DoneReenablesGenerate | renderer/renderer.js:604-725 | a click during the build is ignored; after `generation-done` the button works again and the URL field holds the URL that was sent, which normalising leaves alone |
| GenerateForm.OnDoneReset | renderer/renderer.js:723-725 | completion clears only the in-progress flag of the form |
| GenerateForm.OnFrameSelect | renderer/renderer.js:571-595 | only choosing 'false' opens the titlebar dialog, with the saved size's capabilities (on when unknown); saving keeps the select frameless with the saved settings; cancelling switches it back to 'true' |
| GenerateForm.FramelessHasSettings | renderer/renderer.js:571-659 | a frameless select always has titlebar settings behind it, and the build sends exactly those |
| ProgressLog.FirstStep | renderer/renderer.js:706 | the first German step the message starts with, and none exactly when it starts with none |
| ProgressLog.ShownLine | renderer/renderer.js:698-717 | a shown line always starts with a known step and is non-empty |
| ProgressLog.OnProgress | renderer/renderer.js:698-720 | a dropped message leaves the log alone; a shown one becomes its last line |
| ProgressLog.BuildLog | renderer/renderer.js:671-720 | the log of a whole build is the first line and then every shown line, joined by single newlines |
| ProgressLog.ShownLinesAllowed | renderer/renderer.js:717 | every line of the log starts with a known step |
| ProgressLog.TranslatesFixedSteps | renderer/renderer.js:704-713 | in English every fixed German step (the table at lines 85-93) reads as its English wording (lines 154-162) |
| ProgressLog.TranslatesBuildStep | renderer/renderer.js:708-710 | the build step, which main.js:772 sends with the product name in quotes, keeps that name in English |
| ProgressLog.GermanShowsAsSent | renderer/renderer.js:698-720 | in German a message is shown trimmed and as sent, and only when it starts with a known step |
| ProgressLog.ErrorLineDropped | renderer/renderer.js:679-717 | the `Fehler:` line the main process sends on an unexpected failure (main.js:827) is never shown |
| DoneView.OnDone | renderer/renderer.js:722-802 | a user abort hides the modal; any other abort shows the error; otherwise it is a success offering the file and the reported folder when present |
| DoneView.AsWrittenNeverOffersFolder | renderer/renderer.js:783-786 | as written the open-folder button never appears, whatever the report |
| DoneView.FolderButtonMissing | renderer/renderer.js:783-786 | a concrete success report with a folder, as main.js:810-815 sends it: offered when corrected, not offered as written |
| DoneView.SuccessOffersTargetFolder | main.js:807-815 | after every successful build the modal (renderer/renderer.js:781-790) offers the chosen target folder |
| DoneView.ErrorShownEscaped | renderer/renderer.js:749-753 | a failure shows its message escaped, and the page reads it back as the message itself |
| FrameSummary.Summarize | renderer/renderer.js:555-562 | no settings give an empty summary; SVG ends with the colour or the default grey; custom is `Custom (.png/.ico), ` then the chosen count, `/7` and the wording after a space |
| FrameSummary.ChosenAtMostTotal | renderer/renderer.js:558-560 | assets keyed by button roles never count more than the seven roles |
| FrameSummary.CardClicksKeepRoles | renderer/titlebar-settings.js:400-423 | choosing or clearing a card keeps every asset keyed by a role |
| FrameSummary.ChooseClearCount | renderer/titlebar-settings.js:409-423 | choosing a free slot adds one to the count; clearing a chosen one removes one |
| Settings.PickLang | renderer/titlebar-settings.js:118-119 | the language is 'de' or 'en', and an unknown one falls back to 'de' |
| TitlebarDialog.Init | renderer/titlebar-settings.js:429-442 | mode is custom only for exactly 'custom', theme dark only for exactly 'dark', colour defaults to grey, each capability is on unless explicitly off |
| TitlebarDialog.PickedMime | renderer/titlebar-settings.js:412 | a given type is kept; otherwise `image/x-icon` exactly for the `ico` extension, else `image/png` |
| TitlebarDialog.PickedName | renderer/titlebar-settings.js:413 | the file's name, else its file name, else the role with the extension or `png` |
| TitlebarDialog.Choose | renderer/titlebar-settings.js:402-418 | a disabled card or a cancelled pick changes nothing; otherwise only that role's asset is set, from the picked file |
| TitlebarDialog.Clear | renderer/titlebar-settings.js:419-423 | only that role's asset is removed |
| TitlebarDialog.ClearUndoesChoose | renderer/titlebar-settings.js:402-423 | choosing for a free slot and clearing it restores the dialog |
| TitlebarDialog.PreviewButtons | renderer/titlebar-settings.js:252-260 | left: back, forward, reload; right, in the order minimize, maximize, restore, close: minimize when minimizable, maximize and restore when maximizable, close always |
| TitlebarDialog.PreviewMatchesGeneratedTitlebar | renderer/titlebar-settings.js:252-260 | the preview shows the buttons of the generated app (main.js:648-657), except that the app folds restore into maximize |
| TitlebarDialog.CapsInfo | renderer/titlebar-settings.js:266-286 | the notes appear only in SVG mode, one per disabled capability, minimize first |
| TitlebarDialog.Save | renderer/titlebar-settings.js:464-471 | custom saves theme and assets, SVG saves theme and colour |
| TitlebarDialog.ReopenSaveRoundTrip | renderer/titlebar-settings.js:429-471 | saved settings reopened as the main window passes them (renderer/renderer.js:579-585) and saved again come back unchanged |
| CustomDialog.DialogLang | renderer/custom-settings.js:52-98 | the dialog speaks English only when asked for 'en' |
| CustomDialog.Init | renderer/custom-settings.js:95-108 | each missing value takes its default: 1024, 768, resizable, minimizable, maximizable, with a scrollbar |
| CustomDialog.Save | renderer/custom-settings.js:111-131 | options are sent exactly when both sizes parse to integers in 100 to 5000; they carry the parsed sizes and the four check boxes unchanged; otherwise the alert is shown |
| CustomDialog.ReopenSaveRoundTrip | renderer/custom-settings.js:95-131 | in-range options reopened and saved come back unchanged |
| CustomDialog.DefaultsSave | renderer/custom-settings.js:101-131 | a dialog opened with nothing saved saves the desktop default |
| CustomDialog.OutOfRangeRefused | renderer/custom-settings.js:115-121 | an out-of-range width is refused whatever the height |

## Left out

- Electron windows, menus, IPC wiring and the preload bridge: only the values they carry are modelled.
- Spawning the child processes, killing the process tree and deleting the temporary directory are not modelled. The model keeps only their observable effect: close events with an exit code, or `null` after a signal.
- The temporary directory name built from `Date.now()`: it is a parameter of the picker event.
- Network, DNS and TLS: a download runs against a server map, a finite oracle from URL to reply. Whether `https.get` accepts a URL is decided from the URL itself: it must start with `https://` (ASCII case ignored) and name something after it; any other URL throws before a request is made. An accepted URL the map does not know behaves like an unreachable host.
- Download.IsRequestable: an `https://` URL whose host part is malformed is accepted and then behaves like an unreachable host, where Node would throw; both paths reject the download, so only the error kind differs.
- The PNG-to-ICO conversion: it is a function parameter whose result may be absent, standing for a throw.
- The text of the generated `main.js`, `index.html` and `package.json` templates: only the decisions they encode are modelled (names, buttons, images).
- The awaits inside `generate-app` are collapsed into the picker event. The icon download, the directory creation and the file writes happen in that one step. Writes inside `getFaviconIco` never escape it: a failed conversion or write of the proxy icon is the `toIco` parameter returning `None`, and a failed write of the site's `/favicon.ico` is the `directWrite` flag; both are swallowed and only change which icon is found. An exception from the other file operations (the temp directory, the custom icon file and the generated project files) is an explicit fault. Sending a report after `cleanupTemp(...).then` is modelled as immediate. The awaits of `generation-cancel` are kept: a cancel starts in one event and its `finally` runs in a later one.
- Icon.GetFaviconIco: downloads with the corrected follower `Download.Follow` (see Findings). As written, a redirect to a relative or non-https location leaves the download pending forever. `Download.AsWrittenHangsOnlyOnBadRedirect` states exactly when the two followers differ.
- Icon.SelectIcon: built on `Icon.GetFaviconIco`, so the same applies. As written, the icon step never finishes on such a redirect.
- Orchestrator.PickerChosenStartsInstall: holds for the corrected follower only. As written, such a redirect means no icon line and no install line are sent. `isGenerating` then stays set, so every later `generate-app` is dropped until a cancel.
- Text lengths count Unicode scalar values, not UTF-16 code units. A character outside the Basic Multilingual Plane is one character here and two in JavaScript. So for such names `Naming.PackageName` writes one `-` where the source writes two. The caret arithmetic of `AppName.OnNameInput` counts such a character once where the browser counts two.
- Artifact.FolderIsTargetDir: promises the chosen folder only for a drive root or a path without a trailing separator, which is what the folder picker returns. The normalisation `path.join` applies to `..` segments, repeated separators, UNC share roots and drive-relative paths is not modelled.
- DOM rendering, CSS, object URLs and the `setTimeout` and debounce timing of the renderer are not modelled. The internationalisation tables contribute only the strings the logic compares or shows.
- Unicode case mapping: `toLowerCase` and the `i` regular-expression flag are modelled over ASCII letters only.
- Settings.PickLang: keeps only 'de' and 'en'. The source's `TABLE[lang] ? lang : 'de'` (renderer/titlebar-settings.js:118, renderer/renderer.js:264) would also keep inherited object keys such as "constructor" or "toString". The page never produces such a value. The language comes from its language buttons ('de' and 'en'), or from the stored `uiLang`, which the page writes only after the same check (renderer/renderer.js:263-271). Only a hand-edited local storage entry could reach that case.
- `parseInt` yields exact integers. JavaScript rounds very long digit runs to the nearest double, which cannot move a value across the bounds 100 and 5000.
- The `titlebar-settings:applied` listener (renderer/renderer.js:596-600) is not modelled: it only stores the settings it receives.
- No claim of "exactly one report per build" is stated, because the source does not guarantee one: clearing the flag when the install child closes (main.js:823) admits a second build during packaging. A cancel during install also lets both the cancel handler and the install close send `generation-done`.

## Findings

| source | as written | input that shows it | evidently intended | confidence | as-written member | corrected member |
|---|---|---|---|---|---|---|
| main.js:19-25 | a followed redirect calls `https.get` again from inside the response callback; when the location is not an absolute https URL the call throws there, outside the promise executor, so the download promise never settles and the icon step waits forever | a favicon URL answering 301 with `Location: /static/favicon.ico` | the download rejects, so the icon lookup falls through to the next source | not executed | Download.FollowAsWritten, Download.RelativeRedirectHangs | Download.Follow |
| renderer/renderer.js:783-786 | the success handler shows the open-folder button only when the report has `exeDir`, a field the main process never sends (it sends `folderPath`, main.js:810-815) | any successful build, e.g. `exePath` `C:\out\App.exe`, `folderPath` `C:\out` | the button opens `folderPath` | not executed | DoneView.OnDoneAsWritten, DoneView.AsWrittenNeverOffersFolder | DoneView.OnDone, DoneView.SuccessOffersTargetFolder |

=== FILE: app_name.dfy ===
/** The app-name field (renderer.js:318-351): characters Windows forbids in
    file names are dropped as the user types, trailing dots and spaces are
    cut, and the caret moves back by the number of characters removed. */
module AppName {
  import opened Outcomes
  import opened Text

  /** `[<>:"\/\\|?*\x00-\x1F]` */
  predicate IsInvalidFilenameChar(c: char) {
    c == '<' || c == '>' || c == ':' || c == '"' || c == '/' || c == '\\'
    || c == '|' || c == '?' || c == '*' || c as int < 32
  }

  /** `value.replace(INVALID_FILENAME_RE, '')` */
  function RemoveInvalid(s: string): (r: string)
    ensures forall i :: 0 <= i < |r| ==> !IsInvalidFilenameChar(r[i])
    ensures |r| <= |s|
  {
    if |s| == 0 then ""
    else if IsInvalidFilenameChar(s[0]) then RemoveInvalid(s[1..])
    else [s[0]] + RemoveInvalid(s[1..])
  }

  /** `cleaned.replace(/[. ]+$/g, '')` */
  function StripTrailingDotsSpaces(s: string): (r: string)
    ensures |r| <= |s| && r == s[..|r|]
    ensures r == [] || (r[|r| - 1] != '.' && r[|r| - 1] != ' ')
    ensures forall i :: |r| <= i < |s| ==> s[i] == '.' || s[i] == ' '
  {
    if |s| > 0 && (s[|s| - 1] == '.' || s[|s| - 1] == ' ') then StripTrailingDotsSpaces(s[..|s| - 1]) else s
  }

  /** Every allowed character of the input survives the filter, as often
      as it occurs: together with `RemoveInvalidIsSubsequence` the result
      is exactly the allowed characters, in order. */
  lemma {:induction false} RemoveInvalidKeepsAllowed(s: string)
    ensures forall c :: !IsInvalidFilenameChar(c) ==> multiset(RemoveInvalid(s))[c] == multiset(s)[c]
  {
    if |s| > 0 {
      RemoveInvalidKeepsAllowed(s[1..]);
      assert s == [s[0]] + s[1..];
    }
  }

  /** `sanitizeAppNameInput(value)` */
  function Sanitize(value: string): (r: string)
    ensures forall i :: 0 <= i < |r| ==> !IsInvalidFilenameChar(r[i])
    ensures r == [] || (r[|r| - 1] != '.' && r[|r| - 1] != ' ')
    ensures |r| <= |value|
    // only a run of dots and spaces at the end of the filtered text is cut
    ensures var kept := RemoveInvalid(value);
      |r| <= |kept| && kept[..|r|] == r
      && forall i :: |r| <= i < |kept| ==> kept[i] == '.' || kept[i] == ' '
  {
    if value == "" then "" else StripTrailingDotsSpaces(RemoveInvalid(value))
  }

  /** Every allowed character other than a dot or a space is kept by the
      sanitiser, as often as it was typed. */
  lemma SanitizeKeepsAllowed(value: string)
    ensures forall c :: !IsInvalidFilenameChar(c) && c != '.' && c != ' ' ==>
      multiset(Sanitize(value))[c] == multiset(value)[c]
  {
    var kept := RemoveInvalid(value);
    var r := Sanitize(value);
    RemoveInvalidKeepsAllowed(value);
    var tail := kept[|r|..];
    assert kept == r + tail;
    forall c | !IsInvalidFilenameChar(c) && c != '.' && c != ' '
      ensures multiset(r)[c] == multiset(value)[c]
    {
      assert c !in tail;
      assert multiset(kept) == multiset(r) + multiset(tail);
    }
  }

  lemma {:induction false} RemoveInvalidIsSubsequence(s: string)
    ensures IsSubsequence(RemoveInvalid(s), s)
  {
    if |s| > 0 {
      RemoveInvalidIsSubsequence(s[1..]);
      if !IsInvalidFilenameChar(s[0]) {
        assert ([s[0]] + RemoveInvalid(s[1..]))[1..] == RemoveInvalid(s[1..]);
      } else {
        SubsequenceSkip(RemoveInvalid(s[1..]), s);
      }
    }
  }

  lemma {:induction false} SubsequenceSkip(b: string, a: string)
    requires |a| > 0 && IsSubsequence(b, a[1..])
    ensures IsSubsequence(b, a)
    decreases |a|, 0
  {
    if |b| > 0 && a[0] == b[0] {
      SubsequenceTail(b, a[1..]);
    }
  }

  lemma {:induction false} SubsequenceTail(b: string, a: string)
    requires |b| > 0 && IsSubsequence(b, a)
    ensures IsSubsequence(b[1..], a)
    decreases |a|, 1
  {
    if a[0] != b[0] {
      SubsequenceTail(b, a[1..]);
    }
    SubsequenceSkip(b[1..], a);
  }

  lemma {:induction false} SubsequencePrefix(b: string, a: string, n: nat)
    requires n <= |b| && IsSubsequence(b, a)
    ensures IsSubsequence(b[..n], a)
    decreases |a|
  {
    if n > 0 && |a| > 0 {
      if a[0] == b[0] {
        SubsequencePrefix(b[1..], a[1..], n - 1);
        assert b[..n][1..] == b[1..][..n - 1];
      } else {
        SubsequencePrefix(b, a[1..], n);
      }
    }
  }

  /** The sanitised name keeps characters of the typed value, in order:
      nothing is added or reordered. */
  lemma SanitizeIsSubsequence(value: string)
    ensures IsSubsequence(Sanitize(value), value)
  {
    if value != "" {
      var c := RemoveInvalid(value);
      RemoveInvalidIsSubsequence(value);
      SubsequencePrefix(c, value, |StripTrailingDotsSpaces(c)|);
    }
  }

  lemma {:induction false} RemoveInvalidOfValid(s: string)
    requires forall i :: 0 <= i < |s| ==> !IsInvalidFilenameChar(s[i])
    ensures RemoveInvalid(s) == s
  {
    if |s| > 0 {
      RemoveInvalidOfValid(s[1..]);
    }
  }

  /** A name that is already clean is left alone, so sanitising twice is
      sanitising once and the field settles after one edit. */
  lemma SanitizeIdempotent(value: string)
    ensures (forall i :: 0 <= i < |value| ==> !IsInvalidFilenameChar(value[i]))
            && (value == [] || (value[|value| - 1] != '.' && value[|value| - 1] != ' '))
            ==> Sanitize(value) == value
    ensures Sanitize(Sanitize(value)) == Sanitize(value)
  {
    var r := Sanitize(value);
    RemoveInvalidOfValid(r);
    if (forall i :: 0 <= i < |value| ==> !IsInvalidFilenameChar(value[i])) {
      RemoveInvalidOfValid(value);
    }
  }

  /** The field after an `input` event: its value, the selection set (if
      the value changed), and whether the validity message is cleared. */
  datatype NameEdit = NameEdit(value: string, selection: Option<(int, int)>, clearsValidity: bool)

  function Max0(x: int): int {
    if x < 0 then 0 else x
  }

  /** The `input` handler of the app-name field (renderer.js:332-351). */
  function OnNameInput(prev: string, selStart: Option<int>, selEnd: Option<int>): (r: NameEdit)
    ensures r.value == Sanitize(prev)
    ensures r.clearsValidity <==> r.value != ""
    ensures r.value == prev <==> r.selection.None?
    ensures r.selection.Some? ==>
      var removed := |prev| - |r.value|;
      && r.selection.value.0 == Max0(selStart.GetOr(|prev|) - removed)
      && r.selection.value.1 == Max0(selEnd.GetOr(|prev|) - removed)
    ensures r.selection.Some? && (selStart.Some? ==> 0 <= selStart.value <= |prev|) ==>
      0 <= r.selection.value.0 <= |r.value|
  {
    var cleaned := Sanitize(prev);
    var diff := |prev| - |cleaned|;
    var start := selStart.GetOr(|prev|);
    var end := selEnd.GetOr(|prev|);
    NameEdit(cleaned, if cleaned != prev then Some((Max0(start - diff), Max0(end - diff))) else None, |cleaned| > 0)
  }
}

=== FILE: artifact.dfy ===
/** Artifact extraction after a successful packaging run (main.js:793-815):
    the first entry of `dist` ending in `.exe` is copied into the chosen
    directory under its own name. Paths use the Windows separator; a
    directory is either a drive root such as `D:\` or a path without a
    trailing separator, which is what the folder picker returns. */
module Artifact {
  import opened Outcomes
  import opened Text

  const SEP: char := '\\'

  predicate IsExe(f: string) {
    EndsWith(f, ".exe")
  }

  /** A drive root such as `D:\`: the one directory written with a
      trailing separator. */
  predicate IsDriveRoot(dir: string) {
    |dir| == 3 && dir[1] == ':' && dir[2] == SEP
  }

  /** A directory as the folder picker returns it: a drive root, or a
      non-empty path that neither ends in a separator nor is a bare drive. */
  predicate IsNormalDir(dir: string) {
    IsDriveRoot(dir) || (|dir| > 0 && dir[|dir| - 1] != SEP && !(|dir| == 2 && dir[1] == ':'))
  }

  /** `path.join(dir, file)`: no second separator after a drive root. */
  function PathJoin(dir: string, file: string): string {
    if |dir| > 0 && dir[|dir| - 1] == SEP then dir + file else dir + [SEP] + file
  }

  /** `path.dirname(p)`: everything before the last separator, "." if
      none; a drive root keeps its separator. */
  function Dirname(p: string): string {
    if |p| == 0 then "."
    else if p[|p| - 1] == SEP then (if IsDriveRoot(p) then p else p[..|p| - 1])
    else Dirname(p[..|p| - 1])
  }

  /** `files.find(f => f.endsWith('.exe'))` */
  function FirstExe(files: seq<string>): (r: Option<string>)
    ensures r.None? <==> forall i :: 0 <= i < |files| ==> !IsExe(files[i])
    ensures r.Some? ==>
      exists i :: 0 <= i < |files| && files[i] == r.value && IsExe(r.value)
                  && forall j :: 0 <= j < i ==> !IsExe(files[j])
  {
    if |files| == 0 then None
    else if IsExe(files[0]) then Some(files[0])
    else
      var rest := FirstExe(files[1..]);
      assert forall i :: 0 < i < |files| ==> files[i] == files[1..][i - 1];
      rest
  }

  /** The success fields of `generation-done` and the copy performed:
      `copy` is `(source, target)` when an artifact was found. */
  datatype Extraction = Extraction(exePath: Option<string>, folderPath: string, copy: Option<(string, string)>)

  /** `dist` is `None` when the directory does not exist, else its entries
      (base names, as `readdirSync` lists them). */
  function Extract(tempDir: string, dist: Option<seq<string>>, targetDir: string): (r: Extraction)
    ensures r.exePath.None? ==> r.folderPath == targetDir && r.copy.None?
    ensures r.exePath.Some? ==>
      dist.Some? && FirstExe(dist.value).Some?
      && r.exePath.value == PathJoin(targetDir, FirstExe(dist.value).value)
      && r.copy == Some((PathJoin(PathJoin(tempDir, "dist"), FirstExe(dist.value).value), r.exePath.value))
    ensures dist.Some? && FirstExe(dist.value).Some? ==> r.exePath.Some?
  {
    var distDir := PathJoin(tempDir, "dist");
    var exe := if dist.Some? then FirstExe(dist.value) else None;
    match exe
    case None => Extraction(None, targetDir, None)
    case Some(f) =>
      var target := PathJoin(targetDir, f);
      Extraction(Some(target), Dirname(target), Some((PathJoin(distDir, f), target)))
  }

  lemma {:induction false} DirnameOfJoin(dir: string, file: string)
    requires IsNormalDir(dir)
    requires forall i :: 0 <= i < |file| ==> file[i] != SEP
    ensures Dirname(PathJoin(dir, file)) == dir
    decreases |file|
  {
    var p := PathJoin(dir, file);
    if |file| == 0 {
      if !IsDriveRoot(dir) {
        assert p[..|p| - 1] == dir;
      }
    } else {
      assert p[..|p| - 1] == PathJoin(dir, file[..|file| - 1]);
      DirnameOfJoin(dir, file[..|file| - 1]);
    }
  }

  /** The folder reported is the chosen directory in every case: the
      artifact's own directory when one was copied, the directory itself
      otherwise; and the copy keeps the artifact's name. */
  lemma FolderIsTargetDir(tempDir: string, dist: Option<seq<string>>, targetDir: string)
    requires dist.Some? ==> forall i, k :: 0 <= i < |dist.value| && 0 <= k < |dist.value[i]| ==> dist.value[i][k] != SEP
    ensures Extract(tempDir, dist, targetDir).exePath.None? ==> Extract(tempDir, dist, targetDir).folderPath == targetDir
    ensures IsNormalDir(targetDir) ==> Extract(tempDir, dist, targetDir).folderPath == targetDir
  {
    var r := Extract(tempDir, dist, targetDir);
    if r.exePath.Some? && IsNormalDir(targetDir) {
      var f := FirstExe(dist.value).value;
      var i :| 0 <= i < |dist.value| && dist.value[i] == f && IsExe(f);
      DirnameOfJoin(targetDir, f);
    }
  }

  /** A drive root as the target: the artifact lands directly in it and
      the reported folder is the root itself. */
  lemma DriveRootTarget()
    ensures var r := Extract("T", Some(["App.exe"]), "D:\\");
      r.exePath == Some("D:\\App.exe") && r.folderPath == "D:\\"
  {
    assert IsExe("App.exe");
    assert FirstExe(["App.exe"]) == Some("App.exe");
    assert PathJoin("D:\\", "App.exe") == "D:\\App.exe";
    DirnameOfJoin("D:\\", "App.exe");
  }
}

=== FILE: custom_dialog.dfy ===
/** The custom window-size dialog (renderer/custom-settings.js): it is
    opened with the saved options, fills in defaults for missing ones, and
    saves only sizes between 100 and 5000 pixels. */
module CustomDialog {
  import opened Outcomes
  import opened Text
  import opened Settings

  const MIN_SIZE: int := 100
  const MAX_SIZE: int := 5000

  /** The object the dialog is opened with (`custom-settings:init`). */
  datatype InitData = InitData(
    lang: Option<string>, isDark: bool,
    width: Option<int>, height: Option<int>,
    resizable: Option<bool>, minimizable: Option<bool>,
    maximizable: Option<bool>, noScrollbar: Option<bool>)

  /** The dialog's fields: the two number inputs hold text. */
  datatype Fields = Fields(
    lang: string, widthText: string, heightText: string,
    resizable: bool, minimizable: bool, maximizable: bool, noScrollbar: bool)

  /** `applyCSLang(initial?.lang || 'de')` */
  function DialogLang(lang: Option<string>): (r: string)
    ensures r == "de" || r == "en"
    ensures r == "en" <==> lang == Some("en")
  {
    PickLang(if lang.Some? && lang.value != "" then lang.value else "de")
  }

  /** The init handler (lines 95-108): each missing value takes its
      default, 1024 by 768, resizable, minimizable and maximizable, with a
      scrollbar. */
  function Init(initial: InitData): (f: Fields)
    ensures f.lang == DialogLang(initial.lang)
    ensures f.widthText == IntToString(initial.width.GetOr(1024))
    ensures f.heightText == IntToString(initial.height.GetOr(768))
    ensures f.resizable == initial.resizable.GetOr(true)
    ensures f.minimizable == initial.minimizable.GetOr(true)
    ensures f.maximizable == initial.maximizable.GetOr(true)
    ensures f.noScrollbar == initial.noScrollbar.GetOr(false)
  {
    Fields(DialogLang(initial.lang),
      IntToString(initial.width.GetOr(1024)), IntToString(initial.height.GetOr(768)),
      initial.resizable.GetOr(true), initial.minimizable.GetOr(true),
      initial.maximizable.GetOr(true), initial.noScrollbar.GetOr(false))
  }

  /** The alert shown for sizes out of range. */
  function InvalidText(lang: string): string {
    if lang == "en" then "Please enter valid values between 100 and 5000"
    else "Bitte gültige Werte zwischen 100 und 5000 eingeben"
  }

  predicate InRange(n: int) {
    MIN_SIZE <= n <= MAX_SIZE
  }

  /** The save handler (lines 111-131): both fields parsed as base-10
      integers; the options are sent when both are within range, the alert
      is shown otherwise. */
  function Save(f: Fields): (r: Result<WindowOptions, string>)
    ensures r.Ok? <==>
      && ParseInt(f.widthText).Some? && InRange(ParseInt(f.widthText).value)
      && ParseInt(f.heightText).Some? && InRange(ParseInt(f.heightText).value)
    ensures r.Ok? ==>
      && r.value.width == ParseInt(f.widthText).value && r.value.height == ParseInt(f.heightText).value
      && r.value.resizable == f.resizable && r.value.minimizable == f.minimizable
      && r.value.maximizable == f.maximizable && r.value.noScrollbar == f.noScrollbar
    ensures r.Err? ==> r.error == InvalidText(f.lang)
  {
    match (ParseInt(f.widthText), ParseInt(f.heightText))
    case (Some(w), Some(h)) =>
      if w < MIN_SIZE || h < MIN_SIZE || w > MAX_SIZE || h > MAX_SIZE then Err(InvalidText(f.lang))
      else Ok(WindowOptions(w, h, f.resizable, f.minimizable, f.maximizable, f.noScrollbar))
    case _ => Err(InvalidText(f.lang))
  }

  /** The options the dialog was opened with, reopened and saved
      unchanged, are saved as they were, provided their size is in range. */
  lemma ReopenSaveRoundTrip(o: WindowOptions, lang: Option<string>, isDark: bool)
    requires InRange(o.width) && InRange(o.height)
    ensures Save(Init(InitData(lang, isDark, Some(o.width), Some(o.height),
      Some(o.resizable), Some(o.minimizable), Some(o.maximizable), Some(o.noScrollbar)))) == Ok(o)
  {
    ParseIntOfIntToString(o.width);
    ParseIntOfIntToString(o.height);
  }

  /** Opening the dialog with nothing saved and saving gives the desktop
      default: 1024 by 768, all window buttons, with a scrollbar. */
  lemma DefaultsSave(lang: Option<string>, isDark: bool)
    ensures Save(Init(InitData(lang, isDark, None, None, None, None, None, None)))
      == Ok(WindowOptions(1024, 768, true, true, true, false))
  {
    ParseIntOfIntToString(1024);
    ParseIntOfIntToString(768);
  }

  /** A width typed as "50" or "5001" is refused whatever the height. */
  lemma OutOfRangeRefused(f: Fields, w: int)
    requires !InRange(w) && f.widthText == IntToString(w)
    ensures Save(f) == Err(InvalidText(f.lang))
  {
    ParseIntOfIntToString(w);
  }
}

=== FILE: done_view.dfy ===
/** What the build modal shows when `generation-done` arrives
    (renderer.js:722-802): hidden after a user abort, the escaped error
    after a failure, the output path and buttons to open the file and its
    folder after a success. */
module DoneView {
  import opened Outcomes
  import opened Html
  import opened Orchestrator

  /** The payload field the renderer reads by name; absent fields and any
      name the main process does not send read as `undefined`. */
  function Field(r: Report, name: string): Option<string> {
    if name == "errorMessage" then r.errorMessage
    else if name == "exePath" then r.exePath
    else if name == "folderPath" then r.folderPath
    else None
  }

  /** `x || ''` and `if (x)` on an optional string. */
  function Truthy(x: Option<string>): Option<string> {
    if x.Some? && x.value != "" then x else None
  }

  datatype View =
    | Hidden
    | ErrorView(html: string)
    | SuccessView(html: string, openFile: Option<string>, openFolder: Option<string>)

  /** `d.doneError(msg)` */
  function DoneError(lang: string, msg: string): string {
    (if lang == "en" then "Build failed" else "Fehler bei der Erstellung")
    + (if msg != "" then "<br><small>" + msg + "</small>" else "")
  }

  /** `d.doneSuccess(path)` */
  function DoneSuccess(lang: string, path: string): string {
    (if lang == "en" then "App built successfully!" else "App erfolgreich erstellt!")
    + "<br><small>" + path + "</small>"
  }

  /** The modal after `generation-done`, taking the folder to open from
      the payload field named `folderField`. */
  function ViewWith(lang: string, r: Report, folderField: string): View {
    if r.userAborted then Hidden
    else if r.aborted then
      ErrorView(DoneError(lang, match Truthy(Field(r, "errorMessage")) case Some(m) => EscapeHtml(m) case None => ""))
    else
      var exe := Truthy(Field(r, "exePath"));
      SuccessView(DoneSuccess(lang, exe.GetOr("")), exe, Truthy(Field(r, folderField)))
  }

  /** The handler as written: the folder button looks for `exeDir`. */
  function OnDoneAsWritten(lang: string, r: Report): View {
    ViewWith(lang, r, "exeDir")
  }

  /** The handler reading the field the main process sends. */
  function OnDone(lang: string, r: Report): (v: View)
    ensures v.Hidden? <==> r.userAborted
    ensures v.ErrorView? <==> !r.userAborted && r.aborted
    ensures v.SuccessView? ==> v.openFile == Truthy(r.exePath) && v.openFolder == Truthy(r.folderPath)
  {
    ViewWith(lang, r, "folderPath")
  }

  /** As written, no report, however complete, shows the open-folder
      button: the main process never sends an `exeDir` field. */
  lemma AsWrittenNeverOffersFolder(lang: string, r: Report)
    ensures !OnDoneAsWritten(lang, r).SuccessView? || OnDoneAsWritten(lang, r).openFolder.None?
  {
  }

  /** A concrete success report with a folder: the corrected handler
      offers it, the handler as written does not. */
  lemma FolderButtonMissing()
    ensures var r := Report(false, false, None, Some("C:\\out\\App.exe"), Some("C:\\out"));
      && OnDone("en", r).openFolder == Some("C:\\out")
      && OnDoneAsWritten("en", r).openFolder == None
  {
  }

  /** After every successful build the main process reports, the modal
      offers the chosen target folder, and the file when an `.exe` was
      copied. */
  lemma SuccessOffersTargetFolder(s: State, id: nat, dist: Option<seq<string>>, lang: string)
    requires id in s.sessions && s.sessions[id].stage == Packaging && Artifact.IsNormalDir(s.sessions[id].targetDir)
    requires dist.Some? ==> forall i, k :: 0 <= i < |dist.value| && 0 <= k < |dist.value[i]| ==> dist.value[i][k] != Artifact.SEP
    ensures var out := Step(s, PackageClosed(id, Code(0), dist, false)).1;
      |out| == 2 && out[1].Done? &&
      var v := OnDone(lang, out[1].report);
      && v.SuccessView?
      && v.openFolder == Some(s.sessions[id].targetDir)
  {
    PackageSuccessReports(s, id, dist, false);
  }

  /** A failure shows the error text escaped, and what the page displays
      of it reads back as the message itself. */
  lemma ErrorShownEscaped(lang: string, r: Report)
    requires !r.userAborted && r.aborted && r.errorMessage.Some? && r.errorMessage.value != ""
    ensures var m := r.errorMessage.value;
      && OnDone(lang, r) == ErrorView(DoneError(lang, EscapeHtml(m)))
      && Unescape(EscapeHtml(m)) == m
      && EscapeHtml(m) != ""
  {
    UnescapeEscape(r.errorMessage.value);
  }
}

=== FILE: download.dfy ===
/** The redirect-following GET of `httpDownloadBuffer` (main.js:15-38).
    The network is an abstract server: a map from URL to how the remote
    side answers a request for it. The follower keeps the set of URLs it
    has already requested and refuses to request one twice. */
module Download {
  import opened Outcomes
  import opened Binary
  import opened Sets
  import opened Text

  type Url = string

  /** How the remote side answers one request. */
  datatype Answer =
    /** A response; `location` is the `Location` header, "" when absent. */
    | Status(code: int, header: Url, content: Bytes)
    /** The request's 'error' event: DNS failure, refused connection, TLS error. */
    | Unreachable

  /** URLs absent from the map behave like an unreachable host. */
  type Server = map<Url, Answer>

  /** `https.get` accepts only an absolute URL with the `https:` scheme
      (in any letter case); anything else, a relative path or `http:`
      included, makes it throw before a request is sent. */
  predicate IsRequestable(u: Url) {
    && |u| > 8
    && LowerChar(u[0]) == 'h' && LowerChar(u[1]) == 't' && LowerChar(u[2]) == 't'
    && LowerChar(u[3]) == 'p' && LowerChar(u[4]) == 's'
    && u[5] == ':' && u[6] == '/' && u[7] == '/'
  }

  /** What one `https.get(u)` does. */
  datatype Reply =
    | Response(status: int, location: Url, body: Bytes)
    | NetworkError
    /** `https.get` throws synchronously. */
    | Unrequestable

  function Get(server: Server, u: Url): (r: Reply)
    ensures r.Unrequestable? <==> !IsRequestable(u)
    ensures r.Response? ==> u in server
  {
    if !IsRequestable(u) then Unrequestable
    else if u !in server then NetworkError
    else match server[u]
      case Status(code, header, content) => Response(code, header, content)
      case Unreachable => NetworkError
  }

  datatype FetchError =
    | RedirectLoop
    | HttpStatus(status: int, url: Url)
    | Network
    | BadUrl(url: Url)

  /** The outcome of a download and every URL handed to `https.get`, in order. */
  datatype Fetch = Fetch(result: Result<Bytes, FetchError>, requested: seq<Url>)

  /** A 3xx status with a non-empty `Location` header is followed. */
  predicate IsRedirect(r: Reply) {
    r.Response? && 300 <= r.status < 400 && r.location != ""
  }

  predicate NoDuplicates(s: seq<Url>) {
    forall i, j :: 0 <= i < j < |s| ==> s[i] != s[j]
  }

  /** Consecutive requests are linked by a followed redirect. */
  predicate IsChain(server: Server, requested: seq<Url>) {
    forall i :: 0 <= i < |requested| - 1 ==>
      IsRedirect(Get(server, requested[i])) && Get(server, requested[i]).location == requested[i + 1]
  }

  /** `doGet(u)` with the set `seen` of URLs already requested, with the
      unrequestable-redirect defect corrected (see `FollowAsWritten`): a
      target `https.get` cannot request rejects like any other failure. */
  function Follow(server: Server, u: Url, seen: set<Url>): (f: Fetch)
    ensures u in seen <==> f.requested == []
    ensures f.requested != [] ==> f.requested[0] == u
    ensures NoDuplicates(f.requested)
    ensures forall i :: 0 <= i < |f.requested| ==> f.requested[i] !in seen
    ensures IsChain(server, f.requested)
    ensures f.result.Ok? ==>
      f.requested != []
      && (var last := Get(server, f.requested[|f.requested| - 1]);
          last.Response? && last.status == 200 && last.body == f.result.value)
    ensures f.result == Err(RedirectLoop) ==>
      u in seen
      || (var last := Get(server, f.requested[|f.requested| - 1]);
          IsRedirect(last) && (last.location in seen || last.location in f.requested))
    ensures f.result.Err? && f.requested != [] ==> !IsRedirect(Get(server, f.requested[|f.requested| - 1])) || f.result == Err(RedirectLoop)
    decreases |server.Keys - seen|
  {
    if u in seen then Fetch(Err(RedirectLoop), [])
    else
      var reply := Get(server, u);
      match reply
      case NetworkError => Fetch(Err(Network), [u])
      case Unrequestable => Fetch(Err(BadUrl(u)), [u])
      case Response(status, location, body) =>
        if IsRedirect(reply) then
          ShrinkUnseen(server, u, seen);
          var rest := Follow(server, location, seen + {u});
          Fetch(rest.result, [u] + rest.requested)
        else if status != 200 then Fetch(Err(HttpStatus(status, u)), [u])
        else Fetch(Ok(body), [u])
  }

  /** Requesting a known, unseen URL shrinks the set of URLs still
      requestable: the follower's termination measure. */
  lemma ShrinkUnseen(server: Server, u: Url, seen: set<Url>)
    requires u in server && u !in seen
    ensures |server.Keys - (seen + {u})| < |server.Keys - seen|
  {
    assert server.Keys - seen == (server.Keys - (seen + {u})) + {u};
  }

  /** A URL `https.get` refuses ends the chain, and is the only cause of
      `BadUrl`, which names that URL. */
  lemma {:induction false} FollowBadUrl(server: Server, u: Url, seen: set<Url>)
    ensures var f := Follow(server, u, seen);
      && ((f.result.Err? && f.result.error.BadUrl?) <==>
            f.requested != [] && !IsRequestable(f.requested[|f.requested| - 1]))
      && (f.result.Err? && f.result.error.BadUrl? ==> f.result.error.url == f.requested[|f.requested| - 1])
    decreases |server.Keys - seen|
  {
    if u !in seen {
      var reply := Get(server, u);
      if IsRedirect(reply) {
        ShrinkUnseen(server, u, seen);
        FollowBadUrl(server, reply.location, seen + {u});
        var rest := Follow(server, reply.location, seen + {u});
        var f := Follow(server, u, seen);
        assert f.requested == [u] + rest.requested;
        assert rest.requested != [] ==>
          f.requested[|f.requested| - 1] == rest.requested[|rest.requested| - 1];
      }
    }
  }

  /** `httpDownloadBuffer(url)`: nothing has been requested yet. */
  function DownloadBuffer(server: Server, url: Url): Fetch {
    Follow(server, url, {})
  }

  /** One step of the follower: only status 200 yields a body; a 3xx with a
      location is followed; any other reply, a 3xx without a location
      included, is a failure naming the status. */
  lemma FollowStep(server: Server, u: Url, seen: set<Url>)
    requires u !in seen
    ensures var reply := Get(server, u);
      var f := Follow(server, u, seen);
      && (reply.Response? && reply.status == 200 ==> f.result == Ok(reply.body))
      && (IsRedirect(reply) ==> f.result == Follow(server, reply.location, seen + {u}).result)
      && (reply.Response? && !IsRedirect(reply) && reply.status != 200 ==>
            f.result == Err(HttpStatus(reply.status, u)))
      && (reply.NetworkError? ==> f.result == Err(Network))
  {
  }

  lemma {:induction false} DistinctCard(s: seq<Url>)
    requires NoDuplicates(s)
    ensures |set i | 0 <= i < |s| :: s[i]| == |s|
  {
    if |s| > 0 {
      var front := s[..|s| - 1];
      DistinctCard(front);
      var a := set i | 0 <= i < |front| :: front[i];
      var b := set i | 0 <= i < |s| :: s[i];
      assert b == a + {s[|s| - 1]};
      assert s[|s| - 1] !in a;
    }
  }

  /** The follower terminates after at most one request per URL the server
      knows and has not been requested before, plus the last one. */
  lemma RequestBound(server: Server, u: Url, seen: set<Url>)
    ensures |Follow(server, u, seen).requested| <= |server.Keys - seen| + 1
  {
    var r := Follow(server, u, seen).requested;
    if |r| > 1 {
      var front := r[..|r| - 1];
      DistinctCard(front);
      var a := set i | 0 <= i < |front| :: front[i];
      forall v | v in a
        ensures v in server.Keys - seen
      {
        var i :| 0 <= i < |front| && front[i] == v;
        assert IsRedirect(Get(server, r[i]));
      }
      assert a <= server.Keys - seen;
      assert |a| <= |server.Keys - seen| by {
        SubsetCard(a, server.Keys - seen);
      }
    }
  }

  /** `doGet(u)` exactly as written. When a followed redirect names a
      location `https.get` cannot request, the throw happens inside the
      response callback instead of the promise executor, so it escapes as
      an uncaught exception and the promise never settles: `None`. For the
      first URL the executor turns the throw into a rejection. */
  function FollowAsWritten(server: Server, u: Url, seen: set<Url>, redirected: bool): Option<Result<Bytes, FetchError>>
    decreases |server.Keys - seen|
  {
    if u in seen then Some(Err(RedirectLoop))
    else
      var reply := Get(server, u);
      match reply
      case NetworkError => Some(Err(Network))
      case Unrequestable => if redirected then None else Some(Err(BadUrl(u)))
      case Response(status, location, body) =>
        if IsRedirect(reply) then
          ShrinkUnseen(server, u, seen);
          FollowAsWritten(server, location, seen + {u}, true)
        else if status != 200 then Some(Err(HttpStatus(status, u)))
        else Some(Ok(body))
  }

  /** The code as written agrees with the corrected follower except that it
      never settles exactly when it follows a redirect to a location that
      is not an absolute https URL. */
  lemma {:induction false} AsWrittenHangsOnlyOnBadRedirect(server: Server, u: Url, seen: set<Url>, redirected: bool)
    ensures var f := Follow(server, u, seen);
      && (FollowAsWritten(server, u, seen, redirected) == None
          <==> f.requested != [] && !IsRequestable(f.requested[|f.requested| - 1])
               && (redirected || |f.requested| > 1))
      && (FollowAsWritten(server, u, seen, redirected) != None ==>
            FollowAsWritten(server, u, seen, redirected) == Some(f.result))
    decreases |server.Keys - seen|
  {
    if u !in seen {
      var reply := Get(server, u);
      if IsRedirect(reply) {
        ShrinkUnseen(server, u, seen);
        AsWrittenHangsOnlyOnBadRedirect(server, reply.location, seen + {u}, true);
      }
    }
  }

  /** A concrete site whose redirect carries a relative location: the
      download as written never settles, the corrected one rejects. */
  lemma RelativeRedirectHangs()
    ensures var server := map["https://a.example/favicon.ico" := Status(301, "/static/favicon.ico", [])];
      && FollowAsWritten(server, "https://a.example/favicon.ico", {}, false) == None
      && DownloadBuffer(server, "https://a.example/favicon.ico").result == Err(BadUrl("/static/favicon.ico"))
  {
    var server := map["https://a.example/favicon.ico" := Status(301, "/static/favicon.ico", [])];
    assert IsRequestable("https://a.example/favicon.ico");
    assert !IsRequestable("/static/favicon.ico");
    assert IsRedirect(Get(server, "https://a.example/favicon.ico"));
    assert "/static/favicon.ico" != "https://a.example/favicon.ico";
  }

  /** An `http:` URL is never fetched: `https.get` refuses it, so the
      download rejects whatever the server would have answered. */
  lemma HttpNeverFetched(server: Server, u: Url)
    requires StartsWithNoCase(u, "http://")
    ensures DownloadBuffer(server, u) == Fetch(Err(BadUrl(u)), [u])
  {
    StartsWithNoCaseChars(u, "http://");
    assert LowerChar(u[4]) == ':';
  }
}

=== FILE: errbuffer.dfy ===
/** The bounded stderr buffer of a build stage (`pushErr`, main.js:746-750):
    the newest 200 chunks are kept and the oldest is evicted first. */
module ErrBuffer {
  import opened Text

  const MAX_ERRORS: nat := 200

  /** `pushErr(line)`: append, then drop the oldest once over the cap. */
  function PushErr(buf: seq<string>, line: string): (r: seq<string>)
    ensures |r| > 0 && r[|r| - 1] == line
    ensures |buf| <= MAX_ERRORS ==> |r| <= MAX_ERRORS
    ensures |buf| < MAX_ERRORS ==> r == buf + [line]
    ensures |buf| == MAX_ERRORS ==> r == buf[1..] + [line]
  {
    var grown := buf + [line];
    if |grown| > MAX_ERRORS then grown[1..] else grown
  }

  /** The buffer after a series of chunks arrives, one `pushErr` each. */
  function PushAll(buf: seq<string>, lines: seq<string>): seq<string>
    decreases |lines|
  {
    if |lines| == 0 then buf else PushAll(PushErr(buf, lines[0]), lines[1..])
  }

  /** The newest `n` elements of `s`. */
  function Newest(s: seq<string>, n: nat): (r: seq<string>)
    ensures |r| <= n
  {
    if |s| <= n then s else s[|s| - n..]
  }

  /** Starting within the cap, the buffer is always exactly the newest 200
      chunks of everything pushed: nothing newer is ever lost and nothing
      older is ever kept. */
  lemma {:induction false} PushAllKeepsNewest(buf: seq<string>, lines: seq<string>)
    requires |buf| <= MAX_ERRORS
    ensures PushAll(buf, lines) == Newest(buf + lines, MAX_ERRORS)
    decreases |lines|
  {
    if |lines| > 0 {
      var next := PushErr(buf, lines[0]);
      PushAllKeepsNewest(next, lines[1..]);
      assert next + lines[1..] == Newest(buf + [lines[0]], MAX_ERRORS) + lines[1..];
      var all := buf + lines;
      assert buf + [lines[0]] + lines[1..] == all;
      if |buf| == MAX_ERRORS {
        assert next + lines[1..] == all[1..];
        assert Newest(all[1..], MAX_ERRORS) == Newest(all, MAX_ERRORS);
      }
    }
  }

  /** The text of the buffer in a failure report: `lastErrors.join('')`. */
  function Concat(buf: seq<string>): string {
    if |buf| == 0 then "" else buf[0] + Concat(buf[1..])
  }
}

=== FILE: generate_form.dfy ===
/** The Generate button of the main window (renderer.js:604-668): the app
    name and URL are validated, the window preset and titlebar are chosen,
    and the build configuration is sent to the main process. */
module GenerateForm {
  import opened Outcomes
  import opened Binary
  import opened Text
  import opened AppName
  import opened UrlInput
  import opened Settings
  import TitlebarDialog

  /** What the handler reads from the page. `frameValue` is the value of the
      frame select ('true' or 'false'); `isDark` is the page theme. */
  datatype Form = Form(
    inProgress: bool,
    nameRaw: string, urlRaw: string,
    windowMode: string, frameValue: string, isDark: bool,
    customSettings: Option<WindowOptions>,
    titlebarSettings: Option<TitlebarSettings>,
    customIcon: Option<Bytes>)

  /** The validity message or alert shown instead of generating. */
  datatype FormError = MissingName | MissingUrl | InvalidUrl | NeedCustomFirst

  datatype Click =
    | Ignored
    | Rejected(error: FormError)
    | Submitted(config: BuildConfig)

  const MOBILE_PRESET: WindowOptions := WindowOptions(375, 670, false, true, false, false)
  const DESKTOP_PRESET: WindowOptions := WindowOptions(1024, 768, true, true, true, false)

  /** The titlebar used when none was saved: SVG buttons in the page's theme. */
  function FallbackTitlebar(isDark: bool): TitlebarSettings {
    SvgTitlebar(if isDark then "dark" else "light", DEFAULT_COLOR)
  }

  /** The preset for a window mode; `None` when the mode is 'custom' and no
      custom size was saved yet. */
  function WindowPreset(mode: string, saved: Option<WindowOptions>): Option<WindowOptions> {
    if mode == "mobile" then Some(MOBILE_PRESET)
    else if mode == "custom" then saved
    else Some(DESKTOP_PRESET)
  }

  /** The click handler: the outcome, and the form afterwards (the URL
      field holds the normalised URL once it passed, and the in-progress
      flag is raised when the configuration is sent). */
  function OnGenerateClick(f: Form): (r: (Click, Form))
    ensures f.inProgress <==> r.0.Ignored?
    ensures r.0.Ignored? ==> r.1 == f
    ensures r.1.inProgress <==> f.inProgress || r.0.Submitted?
    ensures r.0 == Rejected(MissingName) <==> !f.inProgress && Trim(Sanitize(f.nameRaw)) == ""
    ensures r.0 == Rejected(MissingUrl) <==>
      !f.inProgress && Trim(Sanitize(f.nameRaw)) != "" && Trim(f.urlRaw) == ""
    ensures r.0.Rejected? && r.0.error == NeedCustomFirst ==> f.windowMode == "custom" && f.customSettings.None?
    ensures r.0.Submitted? ==>
      var c := r.0.config;
      && c.name == Trim(Sanitize(f.nameRaw))
      && c.url == NormalizeUrl(f.urlRaw) && HasHttpScheme(c.url) && r.1.urlRaw == c.url
      && (c.frame <==> f.frameValue == "true")
      && (c.titlebar.Some? <==> !c.frame)
      && Some(c.custom) == WindowPreset(f.windowMode, f.customSettings)
      && c.icoBuffer == f.customIcon
  {
    if f.inProgress then (Ignored, f)
    else
      var name := Trim(Sanitize(f.nameRaw));
      if name == "" then (Rejected(MissingName), f)
      else
        var fixed := NormalizeUrl(f.urlRaw);
        if fixed == "" then (Rejected(MissingUrl), f)
        else if !HasHttpScheme(fixed) then (Rejected(InvalidUrl), f)
        else
          var f1 := f.(urlRaw := fixed);
          var frame := f.frameValue == "true";
          match WindowPreset(f.windowMode, f.customSettings)
          case None => (Rejected(NeedCustomFirst), f1)
          case Some(custom) =>
            var titlebar :=
              if frame then None
              else Some(f.titlebarSettings.GetOr(FallbackTitlebar(f.isDark)));
            (Submitted(BuildConfig(name, fixed, f.windowMode, frame, custom, titlebar, f.customIcon)),
             f1.(inProgress := true))
  }

  /** The name sent to the main process is non-empty, has no white space
      at either end and no character Windows forbids in a file name. */
  lemma SubmittedNameIsFileSafe(f: Form)
    ensures OnGenerateClick(f).0.Submitted? ==>
      var n := OnGenerateClick(f).0.config.name;
      && n != "" && IsTrimmed(n)
      && forall i :: 0 <= i < |n| ==> !IsInvalidFilenameChar(n[i])
  {
    var s := Sanitize(f.nameRaw);
    var k := TrimIsSlice(s);
    TrimFixedPoint(s);
    var n := Trim(s);
    forall i | 0 <= i < |n|
      ensures !IsInvalidFilenameChar(n[i])
    {
      assert n[i] == s[k + i];
    }
  }

  /** A second click while a build runs does nothing: one click, one
      configuration. */
  lemma SubmitOnce(f: Form)
    ensures OnGenerateClick(f).0.Submitted? ==>
      OnGenerateClick(OnGenerateClick(f).1) == (Ignored, OnGenerateClick(f).1)
  {
  }

  /** Invalid URLs are rejected exactly when the trimmed text neither
      carries an http(s) scheme nor looks like a domain. */
  lemma InvalidUrlExactly(f: Form)
    ensures OnGenerateClick(f).0 == Rejected(InvalidUrl) <==>
      && !f.inProgress && Trim(Sanitize(f.nameRaw)) != "" && Trim(f.urlRaw) != ""
      && !HasHttpScheme(Trim(f.urlRaw)) && !LooksLikeDomain(Trim(f.urlRaw))
  {
    NormalizeUrlScheme(f.urlRaw);
  }

  /** The name and the URL pass their checks. */
  predicate NameAndUrlPass(f: Form) {
    !f.inProgress && Trim(Sanitize(f.nameRaw)) != "" && HasHttpScheme(NormalizeUrl(f.urlRaw))
  }

  /** The window-mode presets: mobile is a fixed-size phone window, the
      default is a resizable desktop window, custom uses the saved size
      and asks for one first when none is saved. */
  lemma PresetsByMode(f: Form)
    ensures NameAndUrlPass(f) && f.windowMode == "mobile" ==>
      OnGenerateClick(f).0.Submitted? && OnGenerateClick(f).0.config.custom == MOBILE_PRESET
    ensures NameAndUrlPass(f) && f.windowMode != "mobile" && f.windowMode != "custom" ==>
      OnGenerateClick(f).0.Submitted? && OnGenerateClick(f).0.config.custom == DESKTOP_PRESET
    ensures OnGenerateClick(f).0 == Rejected(NeedCustomFirst) <==>
      NameAndUrlPass(f) && f.windowMode == "custom" && f.customSettings.None?
  {
    var fixed := NormalizeUrl(f.urlRaw);
    if f.inProgress || Trim(Sanitize(f.nameRaw)) == "" {
    } else if fixed == "" {
    } else if !HasHttpScheme(fixed) {
    } else {
      assert NameAndUrlPass(f);
    }
  }

  /** Without a frame the saved titlebar is sent, or SVG buttons in the
      page's theme with the default grey when none was saved. */
  lemma FramelessTitlebar(f: Form)
    ensures OnGenerateClick(f).0.Submitted? && f.frameValue != "true" ==>
      OnGenerateClick(f).0.config.titlebar ==
      Some(if f.titlebarSettings.Some? then f.titlebarSettings.value else FallbackTitlebar(f.isDark))
  {
    if !f.inProgress && Trim(Sanitize(f.nameRaw)) != "" && f.frameValue != "true" {
      var fixed := NormalizeUrl(f.urlRaw);
      if fixed != "" && HasHttpScheme(fixed) && WindowPreset(f.windowMode, f.customSettings).Some? {
        assert OnGenerateClick(f).0.config.titlebar == Some(f.titlebarSettings.GetOr(FallbackTitlebar(f.isDark)));
      }
    }
  }

  /** `generation-done` re-enables the button (renderer.js:723-725): the
      form is no longer in progress and nothing else changes. */
  function OnDoneReset(f: Form): (r: Form)
    ensures !r.inProgress && r.(inProgress := f.inProgress) == f
  {
    f.(inProgress := false)
  }

  /** A click during the build is ignored; once the build has finished
      the button works again, and the URL field holds the normalised URL
      that was sent, a value normalising leaves alone, so a second click
      sends the same URL. */
  lemma DoneReenablesGenerate(f: Form)
    ensures OnGenerateClick(f).0.Submitted? ==> OnGenerateClick(OnGenerateClick(f).1).0.Ignored?
    ensures OnGenerateClick(f).0.Submitted? ==>
      var g := OnDoneReset(OnGenerateClick(f).1);
      && !OnGenerateClick(g).0.Ignored?
      && g.urlRaw == OnGenerateClick(f).0.config.url
      && NormalizeUrl(g.urlRaw) == g.urlRaw
  {
    NormalizeUrlIdempotent(f.urlRaw);
  }

  /** The frame select after a change, and the dialog it opened, if any. */
  datatype FrameChange = FrameChange(frameValue: string, titlebar: Option<TitlebarSettings>, shown: Option<TitlebarDialog.InitData>)

  /** The `change` handler of the frame select (renderer.js:571-595).
      Choosing 'false' opens the titlebar dialog with the current settings
      (SVG buttons in the page's theme when none are saved) and the
      capabilities of the saved custom size, each on when unknown; `reply`
      is the dialog's saved payload, `None` when it was cancelled, which
      switches the select back to 'true'. */
  function OnFrameSelect(value: string, current: Option<TitlebarSettings>, isDark: bool, lang: string,
                         custom: Option<WindowOptions>, reply: Option<TitlebarSettings>): (r: FrameChange)
    ensures value != "false" ==> r == FrameChange(value, current, None)
    ensures value == "false" ==>
      && r.shown.Some?
      && r.shown.value.minimizable == Some(custom.None? || custom.value.minimizable)
      && r.shown.value.maximizable == Some(custom.None? || custom.value.maximizable)
      && r.shown.value.lang == Some(lang)
    ensures value == "false" && reply.Some? ==> r.frameValue == "false" && r.titlebar == reply
    ensures value == "false" && reply.None? ==> r.frameValue == "true" && r.titlebar == current
  {
    if value != "false" then FrameChange(value, current, None)
    else
      var caps := (custom.None? || custom.value.minimizable, custom.None? || custom.value.maximizable);
      var init := TitlebarDialog.InitFor(current.GetOr(FallbackTitlebar(isDark)), isDark, lang, caps.0, caps.1);
      match reply
      case Some(t) => FrameChange("false", Some(t), Some(init))
      case None => FrameChange("true", current, Some(init))
  }

  /** Whatever the dialog answers, a frameless select always has titlebar
      settings behind it, and the build then sends exactly those. */
  lemma FramelessHasSettings(f: Form, value: string, lang: string, reply: Option<TitlebarSettings>)
    ensures var c := OnFrameSelect(value, f.titlebarSettings, f.isDark, lang, f.customSettings, reply);
      c.frameValue == "false" ==> c.titlebar.Some?
    ensures var c := OnFrameSelect(value, f.titlebarSettings, f.isDark, lang, f.customSettings, reply);
      var g := f.(frameValue := c.frameValue, titlebarSettings := c.titlebar);
      c.frameValue == "false" && OnGenerateClick(g).0.Submitted? ==>
        OnGenerateClick(g).0.config.titlebar == c.titlebar
  {
  }
}

=== FILE: generated_titlebar.dfy ===
/** The custom titlebar of a frameless generated app (main.js:548-588,
    649-656 and 708-720): which image files are written for the chosen
    button assets, and what each titlebar button shows. */
module GeneratedTitlebar {
  import opened Outcomes
  import opened Text
  import opened Settings

  /** `config.titlebar?.mode === 'custom' ? 'custom' : 'svg'` */
  predicate IsCustomMode(titlebar: Option<TitlebarSettings>) {
    titlebar.Some? && titlebar.value.CustomTitlebar?
  }

  /** `config.titlebar?.theme === 'dark' ? 'dark' : 'light'` */
  function TopbarTheme(titlebar: Option<TitlebarSettings>): (r: string)
    ensures r == "dark" || r == "light"
    ensures r == "dark" <==> titlebar.Some? && titlebar.value.theme == "dark"
  {
    if titlebar.Some? && titlebar.value.theme == "dark" then "dark" else "light"
  }

  /** `config.titlebar?.color || '#6b7280'`; a custom titlebar has no colour. */
  function SvgColor(titlebar: Option<TitlebarSettings>): (r: string)
    ensures r != ""
    ensures titlebar.Some? && titlebar.value.SvgTitlebar? && titlebar.value.color != "" ==> r == titlebar.value.color
  {
    if titlebar.Some? && titlebar.value.SvgTitlebar? && titlebar.value.color != "" then titlebar.value.color
    else DEFAULT_COLOR
  }

  /** The file an asset is written to: `btn-<key>.ico` for an
      `image/x-icon` asset, `btn-<key>.png` for any other type. */
  function ButtonFileName(key: string, asset: Asset): string {
    "btn-" + key + (if asset.mime == "image/x-icon" then ".ico" else ".png")
  }

  /** `customButtons`: one file per asset, and only in custom mode. */
  function CustomButtons(titlebar: Option<TitlebarSettings>): (r: map<string, string>)
    ensures !IsCustomMode(titlebar) ==> r == map[]
    ensures IsCustomMode(titlebar) ==> r.Keys == titlebar.value.assets.Keys
    ensures forall k :: k in r ==> StartsWith(r[k], "btn-" + k + ".")
  {
    if IsCustomMode(titlebar) then
      var assets := titlebar.value.assets;
      map k | k in assets :: ButtonFileName(k, assets[k])
    else map[]
  }

  /** What one titlebar button shows. */
  datatype ButtonContent =
    /** The single maximize/restore button with both images recorded. */
    | MaxRestoreImage(maxImg: string, restoreImg: string, start: string)
    | Image(src: string)
    | Svg

  /** `customButtons[k] || ''` */
  function FileOf(files: map<string, string>, k: string): string {
    if k in files then files[k] else ""
  }

  /** `buttonHtml(id, title, key, svg)` (main.js:566-588). */
  function ButtonHtml(custom: bool, files: map<string, string>, key: string): (r: ButtonContent)
    ensures !custom ==> r == Svg
    ensures r.Image? ==> custom && r.src == FileOf(files, key) && r.src != ""
    ensures r.MaxRestoreImage? ==>
      custom && key == "maximize"
      && r.maxImg == FileOf(files, "maximize") && r.restoreImg == FileOf(files, "restore")
      && r.start == (if r.maxImg != "" then r.maxImg else r.restoreImg) && r.start != ""
    ensures custom && FileOf(files, key) != "" ==> r != Svg
  {
    if custom && key == "maximize" && (FileOf(files, "maximize") != "" || FileOf(files, "restore") != "") then
      var maxImg := FileOf(files, "maximize");
      var restImg := FileOf(files, "restore");
      MaxRestoreImage(maxImg, restImg, if maxImg != "" then maxImg else restImg)
    else if custom && FileOf(files, key) != "" then Image(FileOf(files, key))
    else Svg
  }

  /** The order of the window buttons in the right group. */
  const RIGHT_ORDER: seq<string> := ["minimize", "maximize", "restore", "close"]

  /** The buttons of the generated titlebar, left group then right group:
      minimize only when minimizable, one maximize/restore button only
      when maximizable, close always. */
  function TitlebarButtons(options: WindowOptions): (r: (seq<string>, seq<string>))
    ensures r.0 == ["back", "forward", "reload"]
    ensures |r.1| > 0 && r.1[|r.1| - 1] == "close"
    ensures "minimize" in r.1 <==> options.minimizable
    ensures "maximize" in r.1 <==> options.maximizable
    ensures "restore" !in r.1
    ensures IsSubsequence(r.1, RIGHT_ORDER)
  {
    (["back", "forward", "reload"],
     (if options.minimizable then ["minimize"] else [])
     + (if options.maximizable then ["maximize"] else [])
     + ["close"])
  }

  /** The image of the maximize/restore button after a window-state
      message (main.js:713-720): a maximized window prefers the restore
      image, a restored one the maximize image, each falling back to the
      other and then to the current image. */
  function MaxButtonImage(maximized: bool, maxImg: string, restoreImg: string, current: string): (r: string)
    ensures maxImg == "" && restoreImg == "" ==> r == current
    ensures maximized && restoreImg != "" ==> r == restoreImg
    ensures !maximized && maxImg != "" ==> r == maxImg
    ensures maximized && restoreImg == "" && maxImg != "" ==> r == maxImg
    ensures !maximized && maxImg == "" && restoreImg != "" ==> r == restoreImg
    ensures r == maxImg || r == restoreImg || r == current
  {
    if maximized then
      if restoreImg != "" then restoreImg else if maxImg != "" then maxImg else current
    else
      if maxImg != "" then maxImg else if restoreImg != "" then restoreImg else current
  }

  /** The button starts out showing what a restored window shows. */
  lemma StartImageIsRestoredImage(files: map<string, string>)
    requires FileOf(files, "maximize") != "" || FileOf(files, "restore") != ""
    ensures var b := ButtonHtml(true, files, "maximize");
      b.MaxRestoreImage? && MaxButtonImage(false, b.maxImg, b.restoreImg, b.start) == b.start
  {
  }

  /** Every button of a custom titlebar whose asset was chosen shows an
      image written for that asset. */
  lemma ChosenAssetsShowImages(titlebar: Option<TitlebarSettings>, key: string)
    requires IsCustomMode(titlebar) && key in titlebar.value.assets
    ensures var files := CustomButtons(titlebar);
      var b := ButtonHtml(true, files, key);
      && (key != "maximize" ==> b == Image(ButtonFileName(key, titlebar.value.assets[key])))
      && (key == "maximize" ==> b.MaxRestoreImage? && b.maxImg == b.start == ButtonFileName(key, titlebar.value.assets[key]))
  {
    var files := CustomButtons(titlebar);
    assert files[key] == ButtonFileName(key, titlebar.value.assets[key]);
  }
}

=== FILE: html.dfy ===
/** `escapeHtml` (renderer.js:841-845), used before an error message from
    the main process is shown as HTML, and the decoding that undoes it. */
module Html {
  import opened Text

  predicate IsSpecial(c: char) {
    c == '&' || c == '<' || c == '>' || c == '"' || c == '\''
  }

  /** The entity written for a character, the character itself otherwise. */
  function EscapeChar(c: char): string {
    match c
    case '&' => "&amp;"
    case '<' => "&lt;"
    case '>' => "&gt;"
    case '"' => "&quot;"
    case '\'' => "&#39;"
    case _ => [c]
  }

  /** `escapeHtml(s)` */
  function EscapeHtml(s: string): (r: string)
    ensures forall i :: 0 <= i < |r| ==> r[i] != '<' && r[i] != '>' && r[i] != '"' && r[i] != '\''
    ensures |r| >= |s|
  {
    if |s| == 0 then "" else EscapeChar(s[0]) + EscapeHtml(s[1..])
  }

  /** The character an entity at the start of `s` stands for, and how
      many characters it spans; a lone character stands for itself. */
  function EntityAt(s: string): (r: (char, nat))
    requires |s| > 0
    ensures 1 <= r.1 <= |s|
  {
    if StartsWith(s, "&amp;") then ('&', 5)
    else if StartsWith(s, "&lt;") then ('<', 4)
    else if StartsWith(s, "&gt;") then ('>', 4)
    else if StartsWith(s, "&quot;") then ('"', 6)
    else if StartsWith(s, "&#39;") then ('\'', 5)
    else (s[0], 1)
  }

  /** What a browser shows for escaped text: the five entities decoded,
      every other character kept. */
  function Unescape(s: string): string
    decreases |s|
  {
    if |s| == 0 then ""
    else
      var e := EntityAt(s);
      [e.0] + Unescape(s[e.1..])
  }

  lemma EntityAtEscape(c: char, rest: string)
    ensures EntityAt(EscapeChar(c) + rest) == (c, |EscapeChar(c)|)
  {
    var t := EscapeChar(c) + rest;
    match c
    case '&' =>
      assert t[..5] == "&amp;";
    case '<' =>
      assert t[1] == 'l' && t[..4] == "&lt;";
    case '>' =>
      assert t[1] == 'g' && t[..4] == "&gt;";
    case '"' =>
      assert t[1] == 'q' && t[..6] == "&quot;";
    case '\'' =>
      assert t[1] == '#' && t[..5] == "&#39;";
    case _ =>
      assert t[0] == c;
  }

  lemma UnescapeChar(c: char, rest: string)
    ensures Unescape(EscapeChar(c) + rest) == [c] + Unescape(rest)
  {
    var t := EscapeChar(c) + rest;
    EntityAtEscape(c, rest);
    assert t[|EscapeChar(c)|..] == rest;
  }

  /** The escaped text reads back as the original message, character for
      character. */
  lemma {:induction false} UnescapeEscape(s: string)
    ensures Unescape(EscapeHtml(s)) == s
  {
    if |s| > 0 {
      UnescapeEscape(s[1..]);
      UnescapeChar(s[0], EscapeHtml(s[1..]));
      assert [s[0]] + s[1..] == s;
    }
  }

  /** Text without special characters is shown unchanged. */
  lemma {:induction false} EscapePlain(s: string)
    requires forall i :: 0 <= i < |s| ==> !IsSpecial(s[i])
    ensures EscapeHtml(s) == s
  {
    if |s| > 0 {
      EscapePlain(s[1..]);
    }
  }
}

=== FILE: icon.dfy ===
/** Icon acquisition of the build (main.js:41-74 and 340-359): a user icon
    buffer with content always wins; otherwise the 256px favicon proxy is
    tried, then the site's `/favicon.ico`, and there may be no icon. */
module Icon {
  import opened Outcomes
  import opened Binary
  import opened Download
  import opened Text

  /** The parts of `new URL(siteUrl)` the lookup uses. */
  datatype SiteUrl = SiteUrl(hostname: string, origin: string)

  const S2_PREFIX: string := "https://www.google.com/s2/favicons?sz=256&domain="

  /** The favicon proxy URL for a host. */
  function S2Url(site: SiteUrl): Url {
    S2_PREFIX + site.hostname
  }

  /** The site's root-relative default favicon. */
  function DirectUrl(site: SiteUrl): Url {
    site.origin + "/favicon.ico"
  }

  /** Which step of `getFaviconIco` produced `icon.ico`. */
  datatype FaviconSource = FromS2 | FromDirect

  /** `found` is `None` when `getFaviconIco` resolves to `undefined`;
      `tried` lists the URLs handed to `httpDownloadBuffer`, in order. */
  datatype FaviconLookup = FaviconLookup(found: Option<FaviconSource>, icon: Bytes, tried: seq<Url>)

  /** `getFaviconIco(siteUrl, tempDir)`. `site` is `None` when `new URL`
      throws; `toIco` is the PNG-to-ICO conversion followed by writing
      `icon.ico`, `None` when either throws; `directWrite` tells whether
      writing the downloaded `/favicon.ico` to `icon.ico` succeeds (a throw
      there is swallowed and the lookup finds nothing).
      A step fails through to the next one on rejection, on an empty body
      and on a failed conversion or write. */
  function GetFaviconIco(site: Option<SiteUrl>, server: Server, toIco: Bytes -> Option<Bytes>, directWrite: bool): (r: FaviconLookup)
    ensures site.None? ==> r.found.None? && r.tried == []
    ensures site.Some? ==> |r.tried| >= 1 && r.tried[0] == S2Url(site.value)
    ensures r.found == Some(FromS2) ==> r.tried == [S2Url(site.value)]
    ensures r.found == Some(FromDirect) ==> r.tried == [S2Url(site.value), DirectUrl(site.value)]
    ensures r.found == Some(FromDirect) ==>
      DownloadBuffer(server, DirectUrl(site.value)).result == Ok(r.icon) && |r.icon| > 0 && directWrite
    ensures r.found == Some(FromS2) ==>
      var s2 := DownloadBuffer(server, S2Url(site.value)).result;
      s2.Ok? && |s2.value| > 0 && toIco(s2.value) == Some(r.icon)
    ensures site.Some? && r.found.None? ==>
      var direct := DownloadBuffer(server, DirectUrl(site.value)).result;
      direct.Err? || |direct.value| == 0 || !directWrite
    // a working proxy result wins, and `/favicon.ico` is used exactly when
    // the proxy step failed and the site's own file has content
    ensures site.Some? ==>
      (r.found == Some(FromS2) <==>
        var s2 := DownloadBuffer(server, S2Url(site.value)).result;
        s2.Ok? && |s2.value| > 0 && toIco(s2.value).Some?)
    ensures site.Some? && r.found != Some(FromS2) ==>
      (r.found == Some(FromDirect) <==>
        var direct := DownloadBuffer(server, DirectUrl(site.value)).result;
        direct.Ok? && |direct.value| > 0 && directWrite)
  {
    match site
    case None => FaviconLookup(None, [], [])
    case Some(u) =>
      var s2 := DownloadBuffer(server, S2Url(u)).result;
      var converted := if s2.Ok? && |s2.value| > 0 then toIco(s2.value) else None;
      if converted.Some? then FaviconLookup(Some(FromS2), converted.value, [S2Url(u)])
      else
        var direct := DownloadBuffer(server, DirectUrl(u)).result;
        if direct.Ok? && |direct.value| > 0 && directWrite then FaviconLookup(Some(FromDirect), direct.value, [S2Url(u), DirectUrl(u)])
        else FaviconLookup(None, [], [S2Url(u), DirectUrl(u)])
  }

  /** Where `icon.ico` of the generated app comes from. */
  datatype IconChoice = CustomIcon(bytes: Bytes) | Favicon(source: FaviconSource, bytes: Bytes) | NoIcon

  /** The icon decision together with the URLs fetched to reach it. */
  datatype IconSelection = IconSelection(choice: IconChoice, tried: seq<Url>)

  /** A user buffer counts only when it has content (`byteLength > 0`). */
  predicate HasContent(userIcon: Option<Bytes>) {
    userIcon.Some? && |userIcon.value| > 0
  }

  /** The icon step of `generate-app` (main.js:341-350). */
  function SelectIcon(userIcon: Option<Bytes>, site: Option<SiteUrl>, server: Server, toIco: Bytes -> Option<Bytes>, directWrite: bool): (r: IconSelection)
    ensures HasContent(userIcon) ==> r.choice == CustomIcon(userIcon.value) && r.tried == []
    ensures !HasContent(userIcon) ==> !r.choice.CustomIcon?
    ensures !HasContent(userIcon) && site.Some? ==> |r.tried| >= 1 && r.tried[0] == S2Url(site.value)
    ensures r.choice.Favicon? ==> r.choice.source == FromS2 || |r.tried| == 2
    // without a usable buffer, `icon.ico` is exactly what the lookup found
    ensures !HasContent(userIcon) ==>
      var l := GetFaviconIco(site, server, toIco, directWrite);
      && r.tried == l.tried
      && (r.choice.Favicon? <==> l.found.Some?)
      && (r.choice.Favicon? ==> r.choice.source == l.found.value && r.choice.bytes == l.icon)
  {
    if HasContent(userIcon) then IconSelection(CustomIcon(userIcon.value), [])
    else
      var lookup := GetFaviconIco(site, server, toIco, directWrite);
      match lookup.found
      case Some(source) => IconSelection(Favicon(source, lookup.icon), lookup.tried)
      case None => IconSelection(NoIcon, lookup.tried)
  }

  const MSG_CUSTOM: string := "Benutzerdefiniertes Icon wird verwendet!"
  const MSG_FAVICON: string := "Favicon wird verwendet!"
  const MSG_NONE: string := "Kein Icon gefunden, Favicon wird genutzt!"

  /** The single progress line reporting the icon decision (main.js:353-359). */
  function IconMessage(choice: IconChoice): string {
    match choice
    case CustomIcon(_) => MSG_CUSTOM
    case Favicon(_, _) => MSG_FAVICON
    case NoIcon => MSG_NONE
  }

  /** The message is the custom one exactly when the user buffer has
      content, the favicon one exactly when there is none and a favicon was
      found, and the no-icon one otherwise; the three are distinct. */
  lemma IconMessagePriority(userIcon: Option<Bytes>, site: Option<SiteUrl>, server: Server, toIco: Bytes -> Option<Bytes>, directWrite: bool)
    ensures var m := IconMessage(SelectIcon(userIcon, site, server, toIco, directWrite).choice);
      && (m == MSG_CUSTOM <==> HasContent(userIcon))
      && (m == MSG_FAVICON <==> !HasContent(userIcon) && GetFaviconIco(site, server, toIco, directWrite).found.Some?)
      && (m == MSG_NONE <==> !HasContent(userIcon) && GetFaviconIco(site, server, toIco, directWrite).found.None?)
  {
    assert MSG_CUSTOM[0] != MSG_FAVICON[0] && MSG_CUSTOM[0] != MSG_NONE[0] && MSG_FAVICON[0] != MSG_NONE[0];
  }

  /** An icon buffer that is present but empty is treated as absent: the
      favicon lookup runs and the proxy is asked first. */
  lemma EmptyBufferFallsThrough(site: SiteUrl, server: Server, toIco: Bytes -> Option<Bytes>, directWrite: bool)
    ensures var r := SelectIcon(Some([]), Some(site), server, toIco, directWrite);
      !r.choice.CustomIcon? && |r.tried| >= 1 && r.tried[0] == S2Url(site)
  {
  }

  /** A site served over plain `http:` never gets its `/favicon.ico`: the
      downloader refuses the non-https URL before any request. */
  lemma HttpOriginNeverDirect(site: SiteUrl, server: Server, toIco: Bytes -> Option<Bytes>, directWrite: bool)
    requires StartsWithNoCase(site.origin, "http://")
    ensures GetFaviconIco(Some(site), server, toIco, directWrite).found != Some(FromDirect)
  {
    StartsWithNoCaseAppend(site.origin, "/favicon.ico", "http://");
    HttpNeverFetched(server, DirectUrl(site));
  }

  /** When the proxy step fails and writing the site's own favicon throws,
      the swallowed error leaves no icon and the no-icon message follows,
      whatever the site served. */
  lemma FailedDirectWriteMeansNoIcon(site: SiteUrl, server: Server, toIco: Bytes -> Option<Bytes>)
    requires var s2 := DownloadBuffer(server, S2Url(site)).result;
      !(s2.Ok? && |s2.value| > 0 && toIco(s2.value).Some?)
    ensures IconMessage(SelectIcon(None, Some(site), server, toIco, false).choice) == MSG_NONE
  {
    IconMessagePriority(None, Some(site), server, toIco, false);
  }
}

=== FILE: naming.dfy ===
/** Names of the generated application (main.js:506-511): its product
    name, npm package name and Windows application id. Case mapping is
    ASCII only. */
module Naming {
  import opened Text

  /** `[a-z0-9]` */
  predicate IsLowerAlnum(c: char) {
    'a' <= c <= 'z' || '0' <= c <= '9'
  }

  /** `[a-z0-9-]` */
  predicate IsPackageChar(c: char) {
    IsLowerAlnum(c) || c == '-'
  }

  /** `config.name || fallback`: an empty name is falsy. */
  function OrDefault(name: string, fallback: string): string {
    if name == "" then fallback else name
  }

  /** `config.name || 'WebApp'` */
  function ProductName(name: string): (r: string)
    ensures name != "" ==> r == name
    ensures name == "" ==> r == "WebApp"
  {
    OrDefault(name, "WebApp")
  }

  /** `s.replace(/[^a-z0-9-]/g, '-')` */
  function DashOthers(s: string): (r: string)
    ensures |r| == |s|
    ensures forall i :: 0 <= i < |s| ==> r[i] == (if IsPackageChar(s[i]) then s[i] else '-')
  {
    seq(|s|, i requires 0 <= i < |s| => if IsPackageChar(s[i]) then s[i] else '-')
  }

  /** Every letter and digit of the input is kept, as often as it occurs. */
  lemma {:induction false} KeepAlnumKeepsAll(s: string)
    ensures forall c :: IsLowerAlnum(c) ==> multiset(KeepAlnum(s))[c] == multiset(s)[c]
  {
    if |s| > 0 {
      KeepAlnumKeepsAll(s[1..]);
      assert s == [s[0]] + s[1..];
    }
  }

  /** `s.replace(/[^a-z0-9]/g, '')` */
  function KeepAlnum(s: string): (r: string)
    ensures forall i :: 0 <= i < |r| ==> IsLowerAlnum(r[i])
    ensures IsSubsequence(r, s)
    ensures |r| <= |s|
  {
    if |s| == 0 then ""
    else if IsLowerAlnum(s[0]) then [s[0]] + KeepAlnum(s[1..])
    else KeepAlnum(s[1..])
  }

  /** The `name` field of the generated `package.json`. */
  function PackageName(name: string): (r: string)
    ensures forall i :: 0 <= i < |r| ==> IsPackageChar(r[i])
    ensures |r| == |ToLower(OrDefault(name, "webapp"))|
    ensures forall i :: 0 <= i < |r| ==>
      (IsPackageChar(ToLower(OrDefault(name, "webapp"))[i]) ==> r[i] == ToLower(OrDefault(name, "webapp"))[i])
    ensures forall i :: 0 <= i < |r| ==>
      (!IsPackageChar(ToLower(OrDefault(name, "webapp"))[i]) ==> r[i] == '-')
  {
    var pkg := DashOthers(ToLower(OrDefault(name, "webapp")));
    if pkg == "" then "webapp" else pkg
  }

  const APP_ID_PREFIX: string := "com.generated."

  /** `build.appId` of the generated `package.json`. */
  function AppId(name: string): (r: string)
    ensures StartsWith(r, APP_ID_PREFIX)
    ensures forall i :: |APP_ID_PREFIX| <= i < |r| ==> IsLowerAlnum(r[i])
    ensures IsSubsequence(r[|APP_ID_PREFIX|..], ToLower(OrDefault(name, "webapp")))
    // every letter and digit of the lower-cased name is kept
    ensures forall c :: IsLowerAlnum(c) ==>
      multiset(r[|APP_ID_PREFIX|..])[c] == multiset(ToLower(OrDefault(name, "webapp")))[c]
  {
    KeepAlnumKeepsAll(ToLower(OrDefault(name, "webapp")));
    var r := APP_ID_PREFIX + KeepAlnum(ToLower(OrDefault(name, "webapp")));
    assert r[|APP_ID_PREFIX|..] == KeepAlnum(ToLower(OrDefault(name, "webapp")));
    r
  }

  /** A name already made of lower-case letters, digits and dashes is its
      own package name, and deriving a package name twice changes nothing. */
  lemma PackageNameIdempotent(name: string)
    ensures name != "" && (forall i :: 0 <= i < |name| ==> IsPackageChar(name[i])) ==> PackageName(name) == name
    ensures PackageName(PackageName(name)) == PackageName(name)
  {
    var p := PackageName(name);
    assert forall i :: 0 <= i < |p| ==> LowerChar(p[i]) == p[i];
    assert ToLower(p) == p;
    if name != "" && (forall i :: 0 <= i < |name| ==> IsPackageChar(name[i])) {
      assert forall i :: 0 <= i < |name| ==> LowerChar(name[i]) == name[i];
      assert ToLower(name) == name;
    }
  }

  lemma {:induction false} KeepAlnumOfDashOthers(s: string)
    ensures KeepAlnum(DashOthers(s)) == KeepAlnum(s)
  {
    if |s| > 0 {
      KeepAlnumOfDashOthers(s[1..]);
      assert DashOthers(s)[1..] == DashOthers(s[1..]);
    }
  }

  /** The application id is the package name with its dashes dropped:
      both derivations see the same letters and digits. */
  lemma AppIdFromPackageName(name: string)
    ensures AppId(name) == APP_ID_PREFIX + KeepAlnum(PackageName(name))
  {
    KeepAlnumOfDashOthers(ToLower(OrDefault(name, "webapp")));
  }
}

=== FILE: orchestrator.dfy ===
/** The build control of the main process (main.js:316-850) as a state
    machine. The two module-level flags `isGenerating` and `abortedByUser`
    are shared by every `generate-app` invocation; each invocation has its
    own session (its chosen directory, temporary directory and stderr
    buffer). External processes, the folder picker and the icon download
    are events carrying their outcome; killing and deleting are effects
    the model does not track. */
module Orchestrator {
  import opened Outcomes
  import opened Binary
  import opened Text
  import opened Download
  import opened Icon
  import opened Naming
  import opened Artifact
  import opened ErrBuffer
  import opened Settings

  /** How a child process closed: an exit code, or `null` when a signal
      ended it. */
  datatype ExitCode = Code(n: int) | Killed

  function ExitText(c: ExitCode): string {
    match c
    case Code(n) => IntToString(n)
    case Killed => "null"
  }

  /** The payload of one `generation-done` message. */
  datatype Report = Report(
    aborted: bool, userAborted: bool, errorMessage: Option<string>,
    exePath: Option<string>, folderPath: Option<string>)

  /** A message to the renderer. */
  datatype Output = Progress(message: string) | Done(report: Report)

  datatype Stage = AwaitingPicker | Installing | Packaging

  datatype Session = Session(stage: Stage, config: BuildConfig, targetDir: string, tempDir: string, errors: seq<string>)

  /** `cancelsPending` counts the `generation-cancel` handlers still
      awaiting the kill and the clean-up before their `finally` runs. */
  datatype State = State(isGenerating: bool, abortedByUser: bool, sessions: map<nat, Session>, nextId: nat,
                         cancelsPending: nat)

  /** Where an exception thrown inside the `try` of `generate-app` arises:
      before the icon message (creating the temporary directory, or writing
      the user's icon buffer to `icon.ico`) or after it (writing the
      project files). */
  datatype Fault = NoFault | BeforeIconFault(message: string) | WriteFault(message: string)

  datatype Event =
    | GenerateApp(config: BuildConfig)
      /** The folder picker of session `id` closed; `choice` is `None` when
          cancelled. The icon lookup runs against `site`, `server`, `toIco`;
          `directWrite` says whether saving the downloaded favicon succeeds. */
    | PickerClosed(id: nat, choice: Option<string>, tempDir: string,
                   site: Option<SiteUrl>, server: Server, toIco: Bytes -> Option<Bytes>, directWrite: bool, fault: Fault)
    | Stderr(id: nat, chunk: string)
    | InstallClosed(id: nat, code: ExitCode)
      /** `dist` is `None` when the output directory does not exist;
          `fsFault` is set when listing it or copying the artifact throws,
          which can happen only when it exists. */
    | PackageClosed(id: nat, code: ExitCode, dist: Option<seq<string>>, fsFault: bool)
      /** A `generation-cancel` handler starts. */
    | Cancel
      /** The oldest pending cancel handler's awaits have settled. */
    | CancelFinished

  const MSG_INSTALL: string := "Installiere Abhängigkeiten..."
  const MSG_SUCCESS: string := "Erfolgreich erstellt!"

  function BuildMessage(productName: string): string {
    "Erstelle Anwendung \"" + productName + ".exe\""
  }

  const USER_ABORT: Report := Report(true, true, None, None, None)

  function Initial(): State {
    State(false, false, map[], 0, 0)
  }

  /** The failure report of a stage whose process exited non-zero. */
  function StageFailure(s: State, tool: string, code: ExitCode, errors: seq<string>): (r: Report)
    ensures r.aborted && r.userAborted == s.abortedByUser && r.exePath.None?
    ensures r.errorMessage == Some(tool + " exit code " + ExitText(code) + "\n\n" + Concat(errors))
  {
    Report(true, s.abortedByUser, Some(tool + " exit code " + ExitText(code) + "\n\n" + Concat(errors)), None, None)
  }

  /** The `catch` of `generate-app`: flag cleared, an error line, a report. */
  function Caught(s: State, id: nat, message: string, before: seq<Output>): (State, seq<Output>) {
    (s.(isGenerating := false, sessions := s.sessions - {id}),
     before + [Progress("Fehler: " + message), Done(Report(true, s.abortedByUser, Some(message), None, None))])
  }

  function StepPicker(s: State, id: nat, session: Session, choice: Option<string>, tempDir: string,
                      site: Option<SiteUrl>, server: Server, toIco: Bytes -> Option<Bytes>, directWrite: bool, fault: Fault): (State, seq<Output>)
  {
    match choice
    case None =>
      (s.(isGenerating := false, sessions := s.sessions - {id}), [Done(USER_ABORT)])
    case Some(dir) =>
      if fault.BeforeIconFault? then Caught(s, id, fault.message, [])
      else
        var iconLine := Progress(IconMessage(SelectIcon(session.config.icoBuffer, site, server, toIco, directWrite).choice));
        if fault.WriteFault? then Caught(s, id, fault.message, [iconLine])
        else
          var next := Session(Installing, session.config, dir, tempDir, []);
          (s.(sessions := s.sessions[id := next]), [iconLine, Progress(MSG_INSTALL)])
  }

  function StepInstallClosed(s: State, id: nat, session: Session, code: ExitCode): (State, seq<Output>) {
    if code != Code(0) then
      (s.(isGenerating := false, sessions := s.sessions - {id}),
       [Done(StageFailure(s, "npm install", code, session.errors))])
    else
      // the packaging stage starts with an empty buffer; the second close
      // listener on the install child (main.js:823) then clears the flag
      var next := session.(stage := Packaging, errors := []);
      (s.(isGenerating := false, sessions := s.sessions[id := next]),
       [Progress(BuildMessage(ProductName(session.config.name)))])
  }

  /** The flag is cleared first (main.js:782); a file-system exception
      after that escapes the close callback, so nothing more is sent. */
  function StepPackageClosed(s: State, id: nat, session: Session, code: ExitCode, dist: Option<seq<string>>,
                             fsFault: bool): (State, seq<Output>) {
    var s' := s.(isGenerating := false, sessions := s.sessions - {id});
    if code != Code(0) then
      (s', [Done(StageFailure(s, "electron-builder", code, session.errors))])
    else if fsFault && dist.Some? then (s', [])
    else
      var x := Extract(session.tempDir, dist, session.targetDir);
      (s', [Progress(MSG_SUCCESS), Done(Report(false, false, None, x.exePath, Some(x.folderPath)))])
  }

  /** The effect of one event. Events for a session that does not exist or
      is in another stage change nothing. */
  function Step(s: State, e: Event): (State, seq<Output>) {
    match e
    case GenerateApp(config) =>
      if s.isGenerating then (s, [])
      else
        (s.(isGenerating := true, abortedByUser := false,
            sessions := s.sessions[s.nextId := Session(AwaitingPicker, config, "", "", [])], nextId := s.nextId + 1), [])
    case PickerClosed(id, choice, tempDir, site, server, toIco, directWrite, fault) =>
      if id in s.sessions && s.sessions[id].stage == AwaitingPicker
      then StepPicker(s, id, s.sessions[id], choice, tempDir, site, server, toIco, directWrite, fault)
      else (s, [])
    case Stderr(id, chunk) =>
      if id in s.sessions && s.sessions[id].stage != AwaitingPicker
      then (s.(sessions := s.sessions[id := s.sessions[id].(errors := PushErr(s.sessions[id].errors, chunk))]), [])
      else (s, [])
    case InstallClosed(id, code) =>
      if id in s.sessions && s.sessions[id].stage == Installing
      then StepInstallClosed(s, id, s.sessions[id], code)
      else (s, [])
    case PackageClosed(id, code, dist, fsFault) =>
      if id in s.sessions && s.sessions[id].stage == Packaging
      then StepPackageClosed(s, id, s.sessions[id], code, dist, fsFault)
      else (s, [])
    case Cancel =>
      if !s.isGenerating then (s, [Done(USER_ABORT)])
      else (s.(abortedByUser := true, cancelsPending := s.cancelsPending + 1), [])
    case CancelFinished =>
      if s.cancelsPending > 0
      then (s.(isGenerating := false, cancelsPending := s.cancelsPending - 1), [Done(USER_ABORT)])
      else (s, [])
  }

  /** A series of events from a state: the final state and every output. */
  function Run(s: State, events: seq<Event>): (State, seq<Output>)
    decreases |events|
  {
    if |events| == 0 then (s, [])
    else
      var (s1, out1) := Step(s, events[0]);
      var (s2, out2) := Run(s1, events[1..]);
      (s2, out1 + out2)
  }

  /** What holds between events: session ids are below the counter, every
      stderr buffer is within its cap, and the flag is set only while the
      newest session is choosing its folder or installing. */
  predicate Inv(s: State) {
    && (forall id :: id in s.sessions ==> id < s.nextId)
    && (forall id :: id in s.sessions ==> |s.sessions[id].errors| <= MAX_ERRORS)
    && (s.isGenerating ==>
          s.nextId > 0 && s.nextId - 1 in s.sessions
          && s.sessions[s.nextId - 1].stage != Packaging)
  }

  lemma InitialInv()
    ensures Inv(Initial())
  {
  }

  lemma StepInv(s: State, e: Event)
    requires Inv(s)
    ensures Inv(Step(s, e).0)
  {
    match e
    case GenerateApp(_) =>
    case PickerClosed(id, choice, tempDir, site, server, toIco, directWrite, fault) =>
      PickerInv(s, id, choice, tempDir, site, server, toIco, directWrite, fault);
    case Stderr(_, _) =>
    case InstallClosed(id, code) =>
      InstallClosedInv(s, id, code);
    case PackageClosed(id, code, dist, fsFault) =>
      PackageClosedInv(s, id, code, dist, fsFault);
    case Cancel =>
    case CancelFinished =>
  }

  lemma PickerInv(s: State, id: nat, choice: Option<string>, tempDir: string,
                  site: Option<SiteUrl>, server: Server, toIco: Bytes -> Option<Bytes>, directWrite: bool, fault: Fault)
    requires Inv(s)
    ensures Inv(Step(s, PickerClosed(id, choice, tempDir, site, server, toIco, directWrite, fault)).0)
  {
  }

  lemma InstallClosedInv(s: State, id: nat, code: ExitCode)
    requires Inv(s)
    ensures Inv(Step(s, InstallClosed(id, code)).0)
  {
  }

  lemma PackageClosedInv(s: State, id: nat, code: ExitCode, dist: Option<seq<string>>, fsFault: bool)
    requires Inv(s)
    ensures Inv(Step(s, PackageClosed(id, code, dist, fsFault)).0)
  {
  }

  /** The invariant holds after any series of events. */
  lemma {:induction false} RunInv(s: State, events: seq<Event>)
    requires Inv(s)
    ensures Inv(Run(s, events).0)
    decreases |events|
  {
    if |events| > 0 {
      StepInv(s, events[0]);
      RunInv(Step(s, events[0]).0, events[1..]);
    }
  }

  /** `generate-app` while a build holds the flag is dropped. */
  lemma GenerateWhileGeneratingIsNoOp(s: State, config: BuildConfig)
    requires s.isGenerating
    ensures Step(s, GenerateApp(config)) == (s, [])
  {
  }

  /** An accepted `generate-app` sets the flag, clears the user-abort flag
      and opens a new session waiting for its folder. */
  lemma GenerateStartsSession(s: State, config: BuildConfig)
    requires Inv(s) && !s.isGenerating
    ensures var (s', out) := Step(s, GenerateApp(config));
      && s'.isGenerating && !s'.abortedByUser && out == []
      && s.nextId !in s.sessions && s'.sessions.Keys == s.sessions.Keys + {s.nextId}
      && s'.sessions[s.nextId].stage == AwaitingPicker
  {
  }

  /** A cancelled folder picker clears the flag, ends the session and
      reports a user abort, without any progress line. */
  lemma PickerCancelReportsUserAbort(s: State, id: nat, tempDir: string, site: Option<SiteUrl>, server: Server, toIco: Bytes -> Option<Bytes>, directWrite: bool, fault: Fault)
    requires id in s.sessions && s.sessions[id].stage == AwaitingPicker
    ensures var (s', out) := Step(s, PickerClosed(id, None, tempDir, site, server, toIco, directWrite, fault));
      !s'.isGenerating && id !in s'.sessions && out == [Done(Report(true, true, None, None, None))]
  {
  }

  /** A chosen folder without a fault emits exactly one icon line (chosen
      by the icon policy) and then the install line, and starts the install
      stage with an empty buffer. */
  lemma PickerChosenStartsInstall(s: State, id: nat, dir: string, tempDir: string, site: Option<SiteUrl>, server: Server, toIco: Bytes -> Option<Bytes>, directWrite: bool)
    requires id in s.sessions && s.sessions[id].stage == AwaitingPicker
    ensures var (s', out) := Step(s, PickerClosed(id, Some(dir), tempDir, site, server, toIco, directWrite, NoFault));
      var sel := SelectIcon(s.sessions[id].config.icoBuffer, site, server, toIco, directWrite);
      && out == [Progress(IconMessage(sel.choice)), Progress(MSG_INSTALL)]
      && s'.isGenerating == s.isGenerating
      && s'.sessions[id] == Session(Installing, s.sessions[id].config, dir, tempDir, [])
  {
  }

  /** `generation-cancel` with no build holding the flag acknowledges at
      once and changes nothing. */
  lemma CancelWhenIdle(s: State)
    requires !s.isGenerating
    ensures Step(s, Cancel) == (s, [Done(Report(true, true, None, None, None))])
  {
  }

  /** `generation-cancel` during a build records the user abort and then
      waits for the kill and the clean-up: the flag stays set meanwhile,
      so a `generate-app` in between is dropped, and nothing is sent yet;
      the sessions (and their child processes' close events) are left
      alone. */
  lemma CancelWhenActive(s: State, config: BuildConfig)
    requires s.isGenerating
    ensures var (s', out) := Step(s, Cancel);
      && s'.abortedByUser && s'.isGenerating && s'.sessions == s.sessions
      && s'.cancelsPending == s.cancelsPending + 1 && out == []
      && Step(s', GenerateApp(config)) == (s', [])
  {
  }

  /** When a pending cancel's awaits settle, its `finally` clears the flag
      and reports a user abort, whatever build holds the flag by then. */
  lemma CancelFinishes(s: State)
    requires s.cancelsPending > 0
    ensures var (s', out) := Step(s, CancelFinished);
      && !s'.isGenerating && s'.sessions == s.sessions && s'.abortedByUser == s.abortedByUser
      && s'.cancelsPending == s.cancelsPending - 1
      && out == [Done(Report(true, true, None, None, None))]
  {
  }

  /** The kill ends the install child before the cancel's clean-up
      settles: its close reports a user-aborted failure and clears the
      flag, so a new `generate-app` is accepted; the cancel's `finally`
      then clears the flag of that new build, which is still choosing its
      folder, and sends it a user abort. */
  lemma CancelOutlivesItsBuild(s: State, id: nat, config: BuildConfig)
    requires Inv(s) && s.isGenerating && id in s.sessions && s.sessions[id].stage == Installing
    ensures var s1 := Step(s, Cancel).0;
      var (s2, out2) := Step(s1, InstallClosed(id, Killed));
      var s3 := Step(s2, GenerateApp(config)).0;
      var (s4, out4) := Step(s3, CancelFinished);
      && |out2| == 1 && out2[0].Done? && out2[0].report.aborted && out2[0].report.userAborted
      && s3.isGenerating && !s3.abortedByUser && s3.sessions[s2.nextId].stage == AwaitingPicker
      && !s4.isGenerating && s4.sessions == s3.sessions
      && out4 == [Done(Report(true, true, None, None, None))]
  {
  }

  /** A stage whose process exits non-zero ends its session and reports an
      abort carrying the user-abort flag and "<tool> exit code N" followed
      by a blank line and the buffered stderr. */
  lemma NonZeroExitReports(s: State, id: nat, code: ExitCode, dist: Option<seq<string>>, fsFault: bool)
    requires id in s.sessions && code != Code(0)
    ensures s.sessions[id].stage == Installing ==>
      var (s', out) := Step(s, InstallClosed(id, code));
      && !s'.isGenerating && id !in s'.sessions
      && out == [Done(Report(true, s.abortedByUser,
                   Some("npm install exit code " + ExitText(code) + "\n\n" + Concat(s.sessions[id].errors)), None, None))]
    ensures s.sessions[id].stage == Packaging ==>
      var (s', out) := Step(s, PackageClosed(id, code, dist, fsFault));
      && !s'.isGenerating && id !in s'.sessions
      && out == [Done(Report(true, s.abortedByUser,
                   Some("electron-builder exit code " + ExitText(code) + "\n\n" + Concat(s.sessions[id].errors)), None, None))]
  {
    var session := s.sessions[id];
    assert "npm install" + " exit code " == "npm install exit code ";
    assert "electron-builder" + " exit code " == "electron-builder exit code ";
    if session.stage == Installing {
      assert Step(s, InstallClosed(id, code)) == StepInstallClosed(s, id, session, code);
    } else if session.stage == Packaging {
      assert Step(s, PackageClosed(id, code, dist, fsFault)) == StepPackageClosed(s, id, session, code, dist, fsFault);
    }
  }

  /** A successful install announces the build with the product name,
      empties the stderr buffer before packaging starts, and, through the
      second close listener, leaves the flag cleared while packaging runs. */
  lemma InstallSuccessStartsPackaging(s: State, id: nat)
    requires id in s.sessions && s.sessions[id].stage == Installing
    ensures var (s', out) := Step(s, InstallClosed(id, Code(0)));
      && out == [Progress(BuildMessage(ProductName(s.sessions[id].config.name)))]
      && s'.sessions[id].stage == Packaging && s'.sessions[id].errors == []
      && !s'.isGenerating
  {
  }

  /** A successful packaging run reports the first `.exe` copied into the
      chosen folder, and that folder; when listing or copying throws, the
      flag is cleared and the session ends but nothing is reported. */
  lemma PackageSuccessReports(s: State, id: nat, dist: Option<seq<string>>, fsFault: bool)
    requires id in s.sessions && s.sessions[id].stage == Packaging
    requires dist.Some? ==> forall i, k :: 0 <= i < |dist.value| && 0 <= k < |dist.value[i]| ==> dist.value[i][k] != SEP
    ensures var (s', out) := Step(s, PackageClosed(id, Code(0), dist, fsFault));
      !s'.isGenerating && id !in s'.sessions
    ensures fsFault && dist.Some? ==> Step(s, PackageClosed(id, Code(0), dist, fsFault)).1 == []
    ensures !(fsFault && dist.Some?) ==>
      var out := Step(s, PackageClosed(id, Code(0), dist, fsFault)).1;
      var session := s.sessions[id];
      && |out| == 2 && out[0] == Progress(MSG_SUCCESS)
      && out[1].Done? && !out[1].report.aborted && !out[1].report.userAborted
      && (IsNormalDir(session.targetDir) ==> out[1].report.folderPath == Some(session.targetDir))
      && (out[1].report.exePath.Some? <==> dist.Some? && FirstExe(dist.value).Some?)
      && (out[1].report.exePath.Some? ==>
            out[1].report.exePath.value == PathJoin(session.targetDir, FirstExe(dist.value).value))
  {
    FolderIsTargetDir(s.sessions[id].tempDir, dist, s.sessions[id].targetDir);
  }

  /** Because the flag is already clear while packaging runs (see
      `InstallSuccessStartsPackaging`), a cancel then only acknowledges:
      the packaging session survives and its close still reports, while a
      second `generate-app` is accepted and starts another session. */
  lemma PackagingIsNotSingleFlight(s: State, id: nat, config: BuildConfig)
    requires Inv(s)
    requires id in s.sessions && s.sessions[id].stage == Packaging && !s.isGenerating
    ensures Step(s, Cancel) == (s, [Done(Report(true, true, None, None, None))])
    ensures var s' := Step(s, GenerateApp(config)).0;
      s'.isGenerating && id in s'.sessions && s'.sessions[id] == s.sessions[id]
  {
  }
}

=== FILE: outcomes.dfy ===
/** Failure-carrying values shared by every module of the model.
    `Option` stands for a JavaScript value that may be `undefined`/`null`;
    `Result` for a promise that either resolves with a value or rejects. */
module Outcomes {

  datatype Option<+T> = None | Some(value: T) {

    /** The value, or `default` when absent: JavaScript's `x ?? default`. */
    function GetOr(default: T): T {
      match this
      case Some(v) => v
      case None => default
    }
  }

  datatype Result<+T, +E> = Ok(value: T) | Err(error: E)
}

/** Binary payloads: file contents, HTTP bodies, icon buffers. */
module Binary {

  type Byte = b: int | 0 <= b < 256

  type Bytes = seq<Byte>
}

/** Facts about finite sets shared by the modules that count things. */
module Sets {

  /** A subset is no larger than its superset. */
  lemma SubsetCard<T>(a: set<T>, b: set<T>)
    requires a <= b
    ensures |a| <= |b|
  {
    assert b == a + (b - a);
  }
}

=== FILE: progress_log.dfy ===
/** The progress log of the build modal (renderer.js:670-720): the main
    process reports steps in German; in English mode the renderer
    translates the known ones, and only lines starting with a known step
    are shown. */
module ProgressLog {
  import opened Outcomes
  import opened Text

  /** The steps as the main process words them (`progressMapIn`). */
  const DE_STEPS: seq<string> := [
    "Speicherort wählen...",
    "Favicon wird verwendet!",
    "Benutzerdefiniertes Icon wird verwendet!",
    "Kein Icon gefunden, Favicon wird genutzt!",
    "Installiere Abhängigkeiten...",
    "Erstelle Anwendung \"",
    "Erfolgreich erstellt!"
  ]

  /** Their English wording (`progressMapOut`), position for position. */
  const EN_STEPS: seq<string> := [
    "Choose destination...",
    "Using favicon!",
    "Using custom icon!",
    "No icon found, using favicon!",
    "Installing dependencies...",
    "Building application \"",
    "Build complete!"
  ]

  /** Where the build step sits in both tables. */
  const BUILD_STEP: nat := 5

  /** `ALLOWED_PREFIXES`: both wordings. */
  const ALLOWED: seq<string> := DE_STEPS + EN_STEPS

  /** `ALLOWED_PREFIXES.some(p => line.startsWith(p))` */
  predicate IsAllowed(line: string) {
    AllowedFrom(line, 0)
  }

  predicate AllowedFrom(line: string, from: nat)
    requires from <= |ALLOWED|
    decreases |ALLOWED| - from
  {
    from < |ALLOWED| && (StartsWith(line, ALLOWED[from]) || AllowedFrom(line, from + 1))
  }

  lemma {:induction false} AllowedFromSpec(line: string, from: nat)
    requires from <= |ALLOWED|
    ensures AllowedFrom(line, from) <==> exists i :: from <= i < |ALLOWED| && StartsWith(line, ALLOWED[i])
    decreases |ALLOWED| - from
  {
    if from < |ALLOWED| {
      AllowedFromSpec(line, from + 1);
    }
  }

  lemma NotStartsWith(s: string, prefix: string, j: nat)
    requires j < |prefix| && j < |s| && s[j] != prefix[j]
    ensures !StartsWith(s, prefix)
  {

  }

  /** `progressMapIn.find(p => msg.startsWith(p))`, as an index. */
  function FirstStep(msg: string, from: nat): (r: Option<nat>)
    requires from <= |DE_STEPS|
    ensures r.None? <==> forall i :: from <= i < |DE_STEPS| ==> !StartsWith(msg, DE_STEPS[i])
    ensures r.Some? ==>
      && from <= r.value < |DE_STEPS| && StartsWith(msg, DE_STEPS[r.value])
      && forall i :: from <= i < r.value ==> !StartsWith(msg, DE_STEPS[i])
    decreases |DE_STEPS| - from
  {
    if from == |DE_STEPS| then None
    else if StartsWith(msg, DE_STEPS[from]) then Some(from)
    else FirstStep(msg, from + 1)
  }

  /** The text before the first double quote, or all of it. */
  function UpToQuote(s: string): (r: string)
    ensures StartsWith(s, r) && !Contains(r, '"')
    ensures |r| < |s| ==> s[|r|] == '"'
  {
    if |s| == 0 || s[0] == '"' then "" else [s[0]] + UpToQuote(s[1..])
  }

  /** `s.split('"')[1] || ''`: the text between the first and the second
      double quote, up to the end when there is no second one. */
  function SecondQuoteField(s: string): string {
    var head := UpToQuote(s);
    if |head| == |s| then "" else UpToQuote(s[|head| + 1..])
  }

  /** The line shown for a trimmed message in the given language. */
  function Translate(lang: string, msg: string): string {
    if lang != "en" then msg
    else match FirstStep(msg, 0)
      case None => msg
      case Some(k) =>
        if k == BUILD_STEP && Contains(msg, '"') then EN_STEPS[BUILD_STEP] + SecondQuoteField(msg) + "\""
        else EN_STEPS[k]
  }

  /** The line a `build-progress` message adds, if any. */
  function ShownLine(lang: string, message: Option<string>): (r: Option<string>)
    ensures r.Some? ==> IsAllowed(r.value) && r.value != ""
  {
    if message.None? || message.value == "" then None
    else
      var line := Translate(lang, Trim(message.value));
      if IsAllowed(line) then AllowedNonEmpty(line); Some(line) else None
  }

  lemma AllowedNonEmpty(line: string)
    requires IsAllowed(line)
    ensures line != ""
  {
    AllowedFromSpec(line, 0);
    var i :| 0 <= i < |ALLOWED| && StartsWith(line, ALLOWED[i]);
    assert ALLOWED[i] != "";
  }

  /** Appending a line to the log text: a newline first unless the log is
      empty; nothing when there is no line. */
  function AppendLine(log: string, line: Option<string>): string {
    match line
    case None => log
    case Some(l) => if log != "" then log + "\n" + l else l
  }

  /** The log text after one `build-progress` message. */
  function OnProgress(lang: string, log: string, message: Option<string>): (r: string)
    ensures ShownLine(lang, message).None? ==> r == log
    ensures ShownLine(lang, message).Some? ==> EndsWith(r, ShownLine(lang, message).value)
  {
    AppendLine(log, ShownLine(lang, message))
  }

  /** The first line `showProgressModal` writes. */
  function InitialLine(lang: string): string {
    if lang == "en" then "Choose destination..." else "Speicherort wählen..."
  }

  /** The messages a build produced, one after another. */
  function RunLog(lang: string, log: string, messages: seq<Option<string>>): string
    decreases |messages|
  {
    if messages == [] then log
    else RunLog(lang, OnProgress(lang, log, messages[0]), messages[1..])
  }

  /** Appending several optional lines in turn. */
  function AppendAll(log: string, lines: seq<Option<string>>): string
    decreases |lines|
  {
    if lines == [] then log else AppendAll(AppendLine(log, lines[0]), lines[1..])
  }

  function OptLine(line: Option<string>): seq<string> {
    if line.Some? then [line.value] else []
  }

  /** The lines that are present, in order. */
  function Present(lines: seq<Option<string>>): seq<string> {
    if lines == [] then [] else OptLine(lines[0]) + Present(lines[1..])
  }

  /** The line each message adds, message by message. */
  function ShownAll(lang: string, messages: seq<Option<string>>): (r: seq<Option<string>>)
    ensures |r| == |messages|
    ensures forall i :: 0 <= i < |r| ==> r[i] == ShownLine(lang, messages[i])
  {
    seq(|messages|, i requires 0 <= i < |messages| => ShownLine(lang, messages[i]))
  }

  /** The lines the messages add, in order. */
  function ShownLines(lang: string, messages: seq<Option<string>>): seq<string> {
    Present(ShownAll(lang, messages))
  }

  lemma ShownAllTail(lang: string, messages: seq<Option<string>>)
    requires messages != []
    ensures ShownAll(lang, messages)[1..] == ShownAll(lang, messages[1..])
    ensures ShownAll(lang, messages)[0] == ShownLine(lang, messages[0])
  {
  }

  lemma AppendAllStep(log: string, lines: seq<Option<string>>)
    requires lines != []
    ensures AppendAll(log, lines) == AppendAll(AppendLine(log, lines[0]), lines[1..])
  {
  }

  lemma {:induction false} RunLogIsAppendAll(lang: string, log: string, messages: seq<Option<string>>)
    ensures RunLog(lang, log, messages) == AppendAll(log, ShownAll(lang, messages))
    decreases |messages|
  {
    if messages != [] {
      var next := OnProgress(lang, log, messages[0]);
      assert RunLog(lang, log, messages) == RunLog(lang, next, messages[1..]);
      RunLogIsAppendAll(lang, next, messages[1..]);
      ShownAllTail(lang, messages);
      AppendAllStep(log, ShownAll(lang, messages));
    }
  }

  lemma {:induction false} JoinNonEmpty(lines: seq<string>)
    requires forall i :: 0 <= i < |lines| ==> lines[i] != ""
    ensures Join(lines, "\n") == "" <==> lines == []
  {
    if |lines| > 1 {
      JoinNonEmpty(lines[1..]);
    }
  }

  lemma AppendLineJoin(lines: seq<string>, line: Option<string>)
    requires NoBlank(lines)
    requires line.Some? ==> line.value != ""
    ensures AppendLine(Join(lines, "\n"), line) == Join(lines + OptLine(line), "\n")
  {
    if line.Some? {
      JoinSnoc(lines, line.value, "\n");
      JoinNonEmpty(lines);
    } else {
      assert lines + [] == lines;
    }
  }

  predicate NoBlank(lines: seq<string>) {
    forall i :: 0 <= i < |lines| ==> lines[i] != ""
  }

  predicate NoBlankOpt(lines: seq<Option<string>>) {
    forall i :: 0 <= i < |lines| && lines[i].Some? ==> lines[i].value != ""
  }

  lemma NoBlankStep(lines: seq<string>, more: seq<Option<string>>)
    requires NoBlank(lines) && NoBlankOpt(more) && more != []
    ensures NoBlank(lines + OptLine(more[0])) && NoBlankOpt(more[1..])
  {
    var next := lines + OptLine(more[0]);
    forall i | 0 <= i < |next| ensures next[i] != "" {
      if i >= |lines| { assert next[i] == more[0].value; }
    }
    forall i | 0 <= i < |more[1..]| && more[1..][i].Some? ensures more[1..][i].value != "" {
      assert more[1..][i] == more[i + 1];
    }
  }

  lemma PresentCons(lines: seq<string>, more: seq<Option<string>>)
    requires more != []
    ensures lines + OptLine(more[0]) + Present(more[1..]) == lines + Present(more)
  {
    var a := OptLine(more[0]);
    var b := Present(more[1..]);
    assert Present(more) == a + b;
    assert lines + a + b == lines + (a + b);
  }

  /** Appending lines one by one gives the lines joined by newlines. */
  lemma {:induction false} AppendAllIsJoin(lines: seq<string>, more: seq<Option<string>>)
    requires NoBlank(lines) && NoBlankOpt(more)
    ensures AppendAll(Join(lines, "\n"), more) == Join(lines + Present(more), "\n")
    decreases |more|
  {
    if more != [] {
      AppendLineJoin(lines, more[0]);
      NoBlankStep(lines, more);
      AppendAllIsJoin(lines + OptLine(more[0]), more[1..]);
      PresentCons(lines, more);
    } else {
      assert lines + Present(more) == lines;
    }
  }

  /** A whole build as the modal shows it: the first line, then every
      known step in order, separated by single newlines. */
  lemma BuildLog(lang: string, messages: seq<Option<string>>)
    ensures RunLog(lang, InitialLine(lang), messages) == Join([InitialLine(lang)] + ShownLines(lang, messages), "\n")
  {
    RunLogIsAppendAll(lang, InitialLine(lang), messages);
    AppendAllIsJoin([InitialLine(lang)], ShownAll(lang, messages));
  }

  /** Every line of the log is a known step. */
  lemma {:induction false} ShownLinesAllowed(lang: string, messages: seq<Option<string>>)
    ensures forall i :: 0 <= i < |ShownLines(lang, messages)| ==> IsAllowed(ShownLines(lang, messages)[i])
  {
    PresentAllowed(ShownAll(lang, messages));
  }

  lemma {:induction false} PresentAllowed(lines: seq<Option<string>>)
    requires forall i :: 0 <= i < |lines| && lines[i].Some? ==> IsAllowed(lines[i].value)
    ensures forall i :: 0 <= i < |Present(lines)| ==> IsAllowed(Present(lines)[i])
  {
    if lines != [] {
      PresentAllowed(lines[1..]);
    }
  }

  /** A step is found when the message starts with it and with none of
      the steps before it. */
  lemma {:induction false} FirstStepIs(msg: string, k: nat, from: nat)
    requires from <= k < |DE_STEPS| && StartsWith(msg, DE_STEPS[k])
    requires forall i :: from <= i < k ==> !StartsWith(msg, DE_STEPS[i])
    ensures FirstStep(msg, from) == Some(k)
    decreases k - from
  {
    if from < k {
      FirstStepIs(msg, k, from + 1);
    }
  }

  lemma ShowsAllowed(line: string, i: nat)
    requires i < |ALLOWED| && StartsWith(line, ALLOWED[i])
    ensures IsAllowed(line)
  {
    AllowedFromSpec(line, 0);
  }

  /** A trimmed message is shown as its translation when that starts
      with a known step. */
  lemma ShownWhenAllowed(lang: string, msg: string)
    requires msg != "" && IsTrimmed(msg) && IsAllowed(Translate(lang, msg))
    ensures ShownLine(lang, Some(msg)) == Some(Translate(lang, msg))
  {
    TrimFixedPoint(msg);
  }

  lemma TranslateFixed(msg: string, k: nat)
    requires k < |DE_STEPS| && k != BUILD_STEP && msg == DE_STEPS[k]
    requires forall i :: 0 <= i < k ==> !StartsWith(msg, DE_STEPS[i])
    ensures Translate("en", msg) == EN_STEPS[k]
  {
    FirstStepIs(msg, k, 0);
  }

  /** No fixed step starts with an earlier step, so each is found as
      itself. */
  lemma EarlierStepsDiffer(k: nat)
    requires k < |DE_STEPS| && k != BUILD_STEP
    ensures forall i :: 0 <= i < k ==> !StartsWith(DE_STEPS[k], DE_STEPS[i])
  {
    forall i | 0 <= i < k
      ensures !StartsWith(DE_STEPS[k], DE_STEPS[i])
    {
      if i == 5 {
        NotStartsWith(DE_STEPS[k], DE_STEPS[i], 2);
      } else {
        NotStartsWith(DE_STEPS[k], DE_STEPS[i], 0);
      }
    }
  }

  lemma StepsTrimmed(k: nat)
    requires k < |DE_STEPS|
    ensures DE_STEPS[k] != "" && IsTrimmed(DE_STEPS[k])
  {
  }

  /** In English mode each fixed German step reads as its English wording. */
  lemma TranslatesFixedSteps(k: nat)
    requires k < |DE_STEPS| && k != BUILD_STEP
    ensures ShownLine("en", Some(DE_STEPS[k])) == Some(EN_STEPS[k])
  {
    EarlierStepsDiffer(k);
    TranslateFixed(DE_STEPS[k], k);
    ShowsAllowed(EN_STEPS[k], |DE_STEPS| + k);
    StepsTrimmed(k);
    ShownWhenAllowed("en", DE_STEPS[k]);
  }

  /** The build step keeps the quoted name: main's message
      `Erstelle Anwendung "<name>"`, where the name is the product name
      with `.exe`, reads as `Building application "<name>"`. */
  lemma TranslatesBuildStep(name: string)
    requires !Contains(name, '"')
    ensures ShownLine("en", Some(DE_STEPS[BUILD_STEP] + name + "\"")) == Some(EN_STEPS[BUILD_STEP] + name + "\"")
  {
    var msg := DE_STEPS[BUILD_STEP] + name + "\"";
    var line := EN_STEPS[BUILD_STEP] + name + "\"";
    TranslateBuild(name, msg);
    ShowsAllowed(line, |DE_STEPS| + BUILD_STEP);
    BuildMessageShape(name, msg);
    ShownBuild(msg, line);
  }

  lemma BuildMessageShape(name: string, msg: string)
    requires msg == DE_STEPS[BUILD_STEP] + name + "\""
    ensures |msg| > 1 && msg[0] == 'E' && msg[|msg| - 1] == '"'
  {
  }

  lemma ShownBuild(msg: string, line: string)
    requires |msg| > 1 && msg[0] == 'E' && msg[|msg| - 1] == '"'
    requires Translate("en", msg) == line && IsAllowed(line)
    ensures ShownLine("en", Some(msg)) == Some(line)
  {
    assert IsTrimmed(msg);
    ShownWhenAllowed("en", msg);
  }

  lemma TranslateBuild(name: string, msg: string)
    requires !Contains(name, '"') && msg == DE_STEPS[BUILD_STEP] + name + "\""
    ensures Translate("en", msg) == EN_STEPS[BUILD_STEP] + name + "\""
  {
    assert StartsWith(msg, DE_STEPS[BUILD_STEP]);
    forall i | 0 <= i < BUILD_STEP
      ensures !StartsWith(msg, DE_STEPS[i])
    {
      NotStartsWith(msg, DE_STEPS[i], 0);
    }
    FirstStepIs(msg, BUILD_STEP, 0);
    QuoteFieldOfBuild(name, msg);
  }

  lemma QuoteFieldOfBuild(name: string, msg: string)
    requires !Contains(name, '"') && msg == DE_STEPS[BUILD_STEP] + name + "\""
    ensures Contains(msg, '"') && SecondQuoteField(msg) == name
  {
    var pre := "Erstelle Anwendung ";
    assert msg == pre + "\"" + name + "\"";
    assert msg[|pre|] == '"';
    UpToQuoteStops(pre, msg);
    assert msg[|pre| + 1..] == name + "\"";
    UpToQuoteStops(name, name + "\"");
  }

  lemma {:induction false} UpToQuoteStops(pre: string, s: string)
    requires StartsWith(s, pre + "\"") && !Contains(pre, '"')
    ensures UpToQuote(s) == pre
  {
    if pre != [] {
      assert s[0] == pre[0];
      assert (pre + "\"")[1..] == pre[1..] + "\"";
      assert s[1..][..|pre|] == s[..|pre| + 1][1..];
      assert StartsWith(s[1..], pre[1..] + "\"");
      assert !Contains(pre[1..], '"') by {
        forall i | 0 <= i < |pre[1..]| ensures pre[1..][i] != '"' {
          assert pre[1..][i] == pre[i + 1];
        }
      }
      UpToQuoteStops(pre[1..], s[1..]);
    }
  }

  /** In German mode a message is shown as sent, and only when it starts
      with a known step. */
  lemma GermanShowsAsSent(msg: string)
    requires msg != ""
    ensures ShownLine("de", Some(msg)) == (if IsAllowed(Trim(msg)) then Some(Trim(msg)) else None)
  {
  }

  /** The `Fehler: …` line the main process sends for an unexpected error
      is never shown: it starts with no known step in either language. */
  lemma ErrorLineDropped(lang: string, detail: string)
    ensures ShownLine(lang, Some("Fehler: " + detail)) == None
  {
    var msg := "Fehler: " + detail;
    assert StartsWith(msg, "Fehler:");
    TrimKeepsPrefix(msg, "Fehler:");
    var t := Trim(msg);
    assert t[..7] == "Fehler:";
    forall i | 0 <= i < |DE_STEPS|
      ensures !StartsWith(t, DE_STEPS[i])
    {
      assert t[1] != DE_STEPS[i][1] || t[0] != DE_STEPS[i][0];
    }
    assert FirstStep(t, 0).None?;
    forall i | 0 <= i < |ALLOWED|
      ensures !StartsWith(t, ALLOWED[i])
    {
      assert t[1] != ALLOWED[i][1] || t[0] != ALLOWED[i][0];
    }
    AllowedFromSpec(t, 0);
  }
}

=== FILE: settings.dfy ===
/** Values that travel between the renderer, the two settings dialogs and
    the main process: window options, titlebar settings and the build
    configuration sent with `generate-app`. */
module Settings {
  import opened Outcomes
  import opened Binary

  /** The window options of the generated app (`config.custom`); presets
      leave `noScrollbar` undefined, which reads as false. */
  datatype WindowOptions = WindowOptions(
    width: int, height: int,
    resizable: bool, minimizable: bool, maximizable: bool,
    noScrollbar: bool)

  /** A custom titlebar button image chosen in the titlebar dialog. */
  datatype Asset = Asset(buffer: Bytes, name: string, mime: string)

  /** The saved titlebar settings: SVG buttons tinted with one colour, or
      per-button images keyed by button role. */
  datatype TitlebarSettings =
    | SvgTitlebar(theme: string, color: string)
    | CustomTitlebar(theme: string, assets: map<string, Asset>)

  /** The configuration of one build (renderer.js:635-660). */
  datatype BuildConfig = BuildConfig(
    name: string, url: string, windowMode: string, frame: bool,
    custom: WindowOptions, titlebar: Option<TitlebarSettings>,
    icoBuffer: Option<Bytes>)

  /** The button roles of a custom titlebar, in card order. */
  const KEYS: seq<string> := ["back", "forward", "reload", "minimize", "maximize", "restore", "close"]

  const DEFAULT_COLOR: string := "#6b7280"

  /** `TABLE[lang] ? lang : 'de'` for a table holding 'de' and 'en'. */
  function PickLang(lang: string): (r: string)
    ensures r == "de" || r == "en"
    ensures r == lang <==> lang == "de" || lang == "en"
  {
    if lang == "de" || lang == "en" then lang else "de"
  }
}

=== FILE: summary.dfy ===
/** The one-line summary of the titlebar settings under the frame select
    (renderer.js:555-562). */
module FrameSummary {
  import opened Outcomes
  import opened Text
  import opened Settings
  import opened Sets
  import TitlebarDialog

  /** The number of button images out of which the summary counts. */
  const TOTAL: nat := 7

  function ThemeName(theme: string): string {
    if theme == "dark" then "Dark" else "Light"
  }

  const CUSTOM_PREFIX: string := "Custom (.png/.ico), "

  /** `color || '#6b7280'` */
  function ShownColor(color: string): (r: string)
    ensures r != ""
    ensures r == DEFAULT_COLOR <==> color == "" || color == DEFAULT_COLOR
  {
    if color != "" then color else DEFAULT_COLOR
  }

  /** `summarizeTitlebarSettings(s)` in the page's language. */
  function Summarize(lang: string, s: Option<TitlebarSettings>): (r: string)
    ensures s.None? <==> r == ""
    ensures s.Some? && s.value.SvgTitlebar? ==>
      EndsWith(r, ShownColor(s.value.color))
    ensures s.Some? && s.value.CustomTitlebar? ==>
      exists post :: |post| > 0 && post[0] == ' '
        && r == CUSTOM_PREFIX + NatToString(|s.value.assets|) + "/" + NatToString(TOTAL) + post
  {
    match s
    case None => ""
    case Some(SvgTitlebar(theme, color)) =>
      if lang == "en" then "SVG (tintable), theme: " + ThemeName(theme) + ", color: " + ShownColor(color)
      else "SVG (färbbar), Theme: " + ThemeName(theme) + ", Farbe: " + ShownColor(color)
    case Some(CustomTitlebar(_, assets)) =>
      var pre := CUSTOM_PREFIX;
      var post := if lang == "en" then " files selected" else " Dateien gewählt";
      var r := pre + NatToString(|assets|) + "/" + NatToString(TOTAL) + post;
      assert r == pre + NatToString(|assets|) + "/" + NatToString(TOTAL) + post;
      r
  }

  /** The button roles, as a set. */
  function KeySet(): set<string> {
    set k | k in KEYS
  }

  lemma {:induction false} SeqSetCard(xs: seq<string>)
    ensures |set x | x in xs| <= |xs|
  {
    if xs != [] {
      SeqSetCard(xs[1..]);
      var rest := set x | x in xs[1..];
      assert (set x | x in xs) == rest + {xs[0]};
    }
  }

  /** Images chosen through the cards are keyed by button role, so the
      summary never counts more than the seven roles. */
  lemma ChosenAtMostTotal(assets: map<string, Asset>)
    requires assets.Keys <= KeySet()
    ensures |assets| <= TOTAL
  {
    SeqSetCard(KEYS);
    assert |assets.Keys| <= |KeySet()| by {
      SubsetCard(assets.Keys, KeySet());
    }
  }

  /** Card clicks keep every chosen image keyed by a button role. */
  lemma CardClicksKeepRoles(d: TitlebarDialog.Dialog, k: string, p: TitlebarDialog.Pick)
    requires d.assets.Keys <= KeySet() && k in KEYS
    ensures TitlebarDialog.Choose(d, k, p).assets.Keys <= KeySet()
    ensures TitlebarDialog.Clear(d, k).assets.Keys <= KeySet()
  {
  }

  /** Choosing an image for an empty slot raises the count by one;
      clearing a chosen one lowers it by one. */
  lemma ChooseClearCount(d: TitlebarDialog.Dialog, k: string, p: TitlebarDialog.Pick)
    ensures k !in d.assets && p.Picked? && !TitlebarDialog.ChooseDisabled(d, k) ==>
      |TitlebarDialog.Choose(d, k, p).assets| == |d.assets| + 1
    ensures k in d.assets ==> |TitlebarDialog.Clear(d, k).assets| == |d.assets| - 1
  {
    if k !in d.assets && p.Picked? && !TitlebarDialog.ChooseDisabled(d, k) {
      assert TitlebarDialog.Choose(d, k, p).assets.Keys == d.assets.Keys + {k};
    }
    if k in d.assets {
      assert TitlebarDialog.Clear(d, k).assets.Keys == d.assets.Keys - {k};
    }
  }
}

=== FILE: text.dfy ===
/** String primitives of JavaScript that the modelled code relies on:
    `trim`, ASCII `toLowerCase`, `startsWith`, `join`, number-to-string
    conversion and `parseInt(_, 10)`. A Dafny `char` is a Unicode scalar
    value, so a character outside the Basic Multilingual Plane is one
    `char` here but two UTF-16 code units in JavaScript. */
module Text {
  import opened Outcomes

  /** The code points ECMAScript counts as WhiteSpace or LineTerminator,
      i.e. exactly those `String.prototype.trim` and `parseInt` skip. */
  predicate IsJsSpace(c: char) {
    var n := c as int;
    n == 0x09 || n == 0x0A || n == 0x0B || n == 0x0C || n == 0x0D || n == 0x20
    || n == 0xA0 || n == 0x1680 || (0x2000 <= n <= 0x200A) || n == 0x2028
    || n == 0x2029 || n == 0x202F || n == 0x205F || n == 0x3000 || n == 0xFEFF
  }

  /** Drops leading white space; the result is a suffix of `s`. */
  function TrimStart(s: string): (r: string)
    ensures |r| <= |s| && r == s[|s| - |r|..]
    ensures forall i :: 0 <= i < |s| - |r| ==> IsJsSpace(s[i])
    ensures r == [] || !IsJsSpace(r[0])
  {
    if |s| > 0 && IsJsSpace(s[0]) then
      var r := TrimStart(s[1..]);
      assert s[1..][|s| - 1 - |r|..] == s[|s| - |r|..];
      r
    else s
  }

  /** Drops trailing white space; the result is a prefix of `s`. */
  function TrimEnd(s: string): (r: string)
    ensures |r| <= |s| && r == s[..|r|]
    ensures forall i :: |r| <= i < |s| ==> IsJsSpace(s[i])
    ensures r == [] || !IsJsSpace(r[|r| - 1])
  {
    if |s| > 0 && IsJsSpace(s[|s| - 1]) then TrimEnd(s[..|s| - 1]) else s
  }

  /** `s.trim()`. */
  function Trim(s: string): string {
    TrimEnd(TrimStart(s))
  }

  /** A string with no white space at either end. */
  predicate IsTrimmed(s: string) {
    s == [] || (!IsJsSpace(s[0]) && !IsJsSpace(s[|s| - 1]))
  }

  lemma TrimStartOfTrimmed(s: string)
    requires s == [] || !IsJsSpace(s[0])
    ensures TrimStart(s) == s
  {
  }

  lemma TrimEndOfTrimmed(s: string)
    requires s == [] || !IsJsSpace(s[|s| - 1])
    ensures TrimEnd(s) == s
  {
  }

  /** `trim` leaves a string alone exactly when it has no white space at
      either end, and what it returns always has that shape. */
  lemma TrimFixedPoint(s: string)
    ensures IsTrimmed(Trim(s))
    ensures Trim(s) == s <==> IsTrimmed(s)
  {
    var a := TrimStart(s);
    var r := TrimEnd(a);
    if r != [] {
      assert r[0] == a[0];
    }
    if IsTrimmed(s) {
      TrimStartOfTrimmed(s);
      TrimEndOfTrimmed(s);
    }
  }

  /** Trimming twice is trimming once. */
  lemma TrimIdempotent(s: string)
    ensures Trim(Trim(s)) == Trim(s)
  {
    TrimFixedPoint(s);
    TrimFixedPoint(Trim(s));
  }

  /** `trim` returns a contiguous slice of its input. */
  lemma TrimIsSlice(s: string) returns (k: nat)
    ensures k + |Trim(s)| <= |s| && Trim(s) == s[k..k + |Trim(s)|]
  {
    var a := TrimStart(s);
    k := |s| - |a|;
    assert Trim(s) == a[..|Trim(s)|];
  }

  /** ASCII case mapping of one character (`toLowerCase` on A-Z). */
  function LowerChar(c: char): char {
    if 'A' <= c <= 'Z' then (c as int + 32) as char else c
  }

  /** `s.toLowerCase()` over ASCII. */
  function ToLower(s: string): (r: string)
    ensures |r| == |s|
    ensures forall i :: 0 <= i < |s| ==> r[i] == LowerChar(s[i])
  {
    seq(|s|, i requires 0 <= i < |s| => LowerChar(s[i]))
  }

  predicate StartsWith(s: string, prefix: string) {
    |prefix| <= |s| && s[..|prefix|] == prefix
  }

  predicate EndsWith(s: string, suffix: string) {
    |suffix| <= |s| && s[|s| - |suffix|..] == suffix
  }

  /** `s` starts with the lower-case `prefix` when ASCII case is ignored,
      as a regular expression with the `i` flag tests it. */
  predicate StartsWithNoCase(s: string, prefix: string)
    decreases |prefix|
  {
    prefix == [] || (|s| > 0 && LowerChar(s[0]) == prefix[0] && StartsWithNoCase(s[1..], prefix[1..]))
  }

  /** Each character of a matched prefix agrees with the string's, case ignored. */
  lemma {:induction false} StartsWithNoCaseChars(s: string, prefix: string)
    requires StartsWithNoCase(s, prefix)
    ensures |prefix| <= |s|
    ensures forall i :: 0 <= i < |prefix| ==> LowerChar(s[i]) == prefix[i]
    decreases |prefix|
  {
    if prefix != [] {
      StartsWithNoCaseChars(s[1..], prefix[1..]);
      assert forall i :: 1 <= i < |prefix| ==> s[i] == s[1..][i - 1] && prefix[i] == prefix[1..][i - 1];
    }
  }

  /** Appending to a string keeps every prefix it starts with. */
  lemma {:induction false} StartsWithNoCaseAppend(s: string, t: string, prefix: string)
    requires StartsWithNoCase(s, prefix)
    ensures StartsWithNoCase(s + t, prefix)
    decreases |prefix|
  {
    if prefix != [] {
      assert (s + t)[1..] == s[1..] + t;
      StartsWithNoCaseAppend(s[1..], t, prefix[1..]);
    }
  }

  /** A lower-case prefix followed by anything starts the string. */
  lemma {:induction false} StartsWithNoCaseOwn(prefix: string, rest: string)
    requires forall i :: 0 <= i < |prefix| ==> LowerChar(prefix[i]) == prefix[i]
    ensures StartsWithNoCase(prefix + rest, prefix)
    decreases |prefix|
  {
    if prefix != [] {
      assert (prefix + rest)[1..] == prefix[1..] + rest;
      StartsWithNoCaseOwn(prefix[1..], rest);
    }
  }

  /** `a.includes(c)` for a single character. */
  predicate Contains(s: string, c: char) {
    exists i :: 0 <= i < |s| && s[i] == c
  }

  /** `parts.join(sep)`. */
  function Join(parts: seq<string>, sep: string): string {
    if |parts| == 0 then ""
    else if |parts| == 1 then parts[0]
    else parts[0] + sep + Join(parts[1..], sep)
  }

  /** Joining one more part appends the separator and that part. */
  lemma {:induction false} JoinSnoc(parts: seq<string>, x: string, sep: string)
    ensures Join(parts + [x], sep) == if parts == [] then x else Join(parts, sep) + sep + x
  {
    if |parts| > 1 {
      assert (parts + [x])[1..] == parts[1..] + [x];
      JoinSnoc(parts[1..], x, sep);
    } else if |parts| == 1 {
      assert (parts + [x])[1..] == [x];
    }
  }

  /** A string that starts with a prefix whose ends are not white space
      still starts with it after `trim`. */
  lemma TrimKeepsPrefix(s: string, prefix: string)
    requires StartsWith(s, prefix) && prefix != [] && IsTrimmed(prefix)
    ensures StartsWith(Trim(s), prefix)
  {
    assert !IsJsSpace(s[0]) && !IsJsSpace(s[|prefix| - 1]);
    TrimStartOfTrimmed(s);
    var r := TrimEnd(s);
    assert |r| >= |prefix|;
    assert r[..|prefix|] == s[..|prefix|];
  }

  /** `b` can be obtained from `a` by deleting characters. */
  predicate IsSubsequence<T(==)>(b: seq<T>, a: seq<T>)
    decreases |a|
  {
    if |b| == 0 then true
    else if |a| == 0 then false
    else if a[0] == b[0] then IsSubsequence(b[1..], a[1..])
    else IsSubsequence(b, a[1..])
  }

  predicate IsDigit(c: char) {
    '0' <= c <= '9'
  }

  function DigitChar(d: nat): char
    requires d < 10
  {
    ('0' as int + d) as char
  }

  /** `String(n)` for a natural number. */
  function NatToString(n: nat): (r: string)
    ensures |r| > 0
    ensures forall i :: 0 <= i < |r| ==> IsDigit(r[i])
  {
    if n < 10 then [DigitChar(n)] else NatToString(n / 10) + [DigitChar(n % 10)]
  }

  /** `String(n)` for an integer. */
  function IntToString(n: int): string {
    if n < 0 then "-" + NatToString(-n) else NatToString(n)
  }

  /** The number a string of decimal digits denotes. */
  function DigitsValue(ds: string): nat
    requires forall i :: 0 <= i < |ds| ==> IsDigit(ds[i])
  {
    if |ds| == 0 then 0
    else assert IsDigit(ds[|ds| - 1]); DigitsValue(ds[..|ds| - 1]) * 10 + (ds[|ds| - 1] as int - '0' as int)
  }

  /** The longest prefix of `s` made of decimal digits. */
  function DigitPrefix(s: string): (r: string)
    ensures |r| <= |s| && r == s[..|r|]
    ensures forall i :: 0 <= i < |r| ==> IsDigit(r[i])
    ensures |r| == |s| || !IsDigit(s[|r|])
  {
    if |s| > 0 && IsDigit(s[0]) then [s[0]] + DigitPrefix(s[1..]) else ""
  }

  /** `parseInt(s, 10)`: skip leading white space, take an optional sign,
      then the longest run of digits; `None` is `NaN` (no digit at all).
      Values are exact integers; JavaScript rounds very long digit runs to
      the nearest double, which never moves a value across a bound that is
      itself a small integer. */
  function ParseInt(s: string): Option<int> {
    var t := TrimStart(s);
    var negative := |t| > 0 && t[0] == '-';
    var body := if |t| > 0 && (t[0] == '-' || t[0] == '+') then t[1..] else t;
    var ds := DigitPrefix(body);
    if |ds| == 0 then None
    else if negative then Some(-(DigitsValue(ds) as int))
    else Some(DigitsValue(ds))
  }

  lemma DigitPrefixOfDigits(s: string)
    requires forall i :: 0 <= i < |s| ==> IsDigit(s[i])
    ensures DigitPrefix(s) == s
  {
  }

  lemma {:induction false} NatToStringValue(n: nat)
    ensures DigitsValue(NatToString(n)) == n
  {
    if n >= 10 {
      var r := NatToString(n);
      NatToStringValue(n / 10);
      assert r[..|r| - 1] == NatToString(n / 10);
    }
  }

  /** `parseInt(String(n), 10) == n` for every integer. */
  lemma ParseIntOfIntToString(n: int)
    ensures ParseInt(IntToString(n)) == Some(n)
  {
    if n < 0 {
      ParseIntOfNegative(-n);
    } else {
      ParseIntOfNat(n);
    }
  }

  lemma ParseIntOfNat(n: nat)
    ensures ParseInt(NatToString(n)) == Some(n)
  {
    var s := NatToString(n);
    assert IsDigit(s[0]);
    TrimStartOfTrimmed(s);
    DigitPrefixOfDigits(s);
    NatToStringValue(n);
  }

  lemma ParseIntOfNegative(n: nat)
    ensures ParseInt("-" + NatToString(n)) == Some(-(n as int))
  {
    var digits := NatToString(n);
    var s := "-" + digits;
    TrimStartOfTrimmed(s);
    assert s[1..] == digits;
    DigitPrefixOfDigits(digits);
    NatToStringValue(n);
  }
}

=== FILE: titlebar_dialog.dfy ===
/** The titlebar settings dialog (renderer/titlebar-settings.js): it is
    opened with the current settings, lets the user pick SVG or custom
    buttons, choose or clear one image per button role, and saves either an
    SVG payload or a custom one. */
module TitlebarDialog {
  import opened Outcomes
  import opened Binary
  import opened Settings
  import opened GeneratedTitlebar
  import opened Text

  /** `x || fallback` for an optional string: absent or empty reads as
      false. */
  function OrElse(x: Option<string>, fallback: string): string {
    if x.Some? && x.value != "" then x.value else fallback
  }

  /** The object the dialog is opened with (`titlebar-settings:init`). */
  datatype InitData = InitData(
    lang: Option<string>, isDark: bool,
    mode: Option<string>, theme: Option<string>, color: Option<string>,
    assets: Option<map<string, Asset>>,
    minimizable: Option<bool>, maximizable: Option<bool>)

  datatype Dialog = Dialog(
    lang: string, mode: string, theme: string, color: string,
    assets: map<string, Asset>, minimizable: bool, maximizable: bool)

  /** The init handler (renderer/titlebar-settings.js:429-442): the language
      falls back to the one in use, unknown values fall back to 'svg',
      'light' and the default grey, and a capability is on unless it is
      explicitly off. */
  function Init(uiLang: string, initial: InitData): (d: Dialog)
    ensures d.lang == PickLang(OrElse(initial.lang, uiLang))
    ensures d.mode == "custom" <==> initial.mode == Some("custom")
    ensures d.mode == "svg" || d.mode == "custom"
    ensures d.theme == "dark" <==> initial.theme == Some("dark")
    ensures d.theme == "dark" || d.theme == "light"
    ensures d.color != "" && (initial.color.Some? && initial.color.value != "" ==> d.color == initial.color.value)
    ensures (initial.color.None? || initial.color == Some("")) ==> d.color == DEFAULT_COLOR
    ensures d.minimizable <==> initial.minimizable != Some(false)
    ensures d.maximizable <==> initial.maximizable != Some(false)
    ensures d.assets == initial.assets.GetOr(map[])
  {
    Dialog(
      PickLang(OrElse(initial.lang, uiLang)),
      if initial.mode == Some("custom") then "custom" else "svg",
      if initial.theme == Some("dark") then "dark" else "light",
      OrElse(initial.color, DEFAULT_COLOR),
      initial.assets.GetOr(map[]),
      initial.minimizable != Some(false),
      initial.maximizable != Some(false))
  }

  /** Whether the choose button of a card is disabled (lines 323-325). */
  predicate ChooseDisabled(d: Dialog, k: string) {
    (k == "minimize" && !d.minimizable) || ((k == "maximize" || k == "restore") && !d.maximizable)
  }

  /** What the asset picker returns: nothing or a cancellation, or a file. */
  datatype Pick =
    | Canceled
    | Picked(buffer: Bytes, name: Option<string>, filename: Option<string>, ext: Option<string>, mime: Option<string>)

  /** The MIME type recorded for a picked file. */
  function PickedMime(p: Pick): (m: string)
    requires p.Picked?
    ensures p.mime.Some? && p.mime.value != "" ==> m == p.mime.value
    ensures (p.mime.None? || p.mime == Some("")) ==> (m == "image/x-icon" <==> p.ext == Some("ico"))
    ensures (p.mime.None? || p.mime == Some("")) ==> m == "image/x-icon" || m == "image/png"
  {
    OrElse(p.mime, if p.ext == Some("ico") then "image/x-icon" else "image/png")
  }

  /** The name recorded for a picked file: its name, its file name, or the
      role with the extension ('png' when there is none). */
  function PickedName(k: string, p: Pick): (n: string)
    requires p.Picked?
    ensures p.name.Some? && p.name.value != "" ==> n == p.name.value
    ensures OrElse(p.name, "") == "" && p.filename.Some? && p.filename.value != "" ==> n == p.filename.value
    ensures OrElse(p.name, "") == "" && OrElse(p.filename, "") == "" ==>
      n == k + "." + OrElse(p.ext, "png")
  {
    OrElse(p.name, OrElse(p.filename, if p.ext.Some? && p.ext.value != "" then k + "." + p.ext.value else k + ".png"))
  }

  /** A click on the choose button of card `k` (lines 400-418). */
  function Choose(d: Dialog, k: string, p: Pick): (r: Dialog)
    ensures ChooseDisabled(d, k) || p.Canceled? ==> r == d
    ensures !ChooseDisabled(d, k) && p.Picked? ==>
      && k in r.assets && r.assets[k].buffer == p.buffer
      && r.assets[k].mime == PickedMime(p) && r.assets[k].name == PickedName(k, p)
    ensures forall j :: j != k ==> (j in r.assets <==> j in d.assets)
    ensures forall j :: j != k && j in d.assets ==> r.assets[j] == d.assets[j]
    ensures r.(assets := d.assets) == d
  {
    if ChooseDisabled(d, k) then d
    else match p
      case Canceled => d
      case Picked(buffer, _, _, _, _) => d.(assets := d.assets[k := Asset(buffer, PickedName(k, p), PickedMime(p))])
  }

  /** A click on the clear button of card `k` (lines 419-423); clearing is
      never disabled. */
  function Clear(d: Dialog, k: string): (r: Dialog)
    ensures k !in r.assets
    ensures forall j :: j != k ==> (j in r.assets <==> j in d.assets)
    ensures forall j :: j != k && j in d.assets ==> r.assets[j] == d.assets[j]
    ensures r.(assets := d.assets) == d
  {
    d.(assets := d.assets - {k})
  }

  /** Choosing an image for a free slot and clearing it again leaves the
      dialog as it was. */
  lemma ClearUndoesChoose(d: Dialog, k: string, p: Pick)
    requires k !in d.assets
    ensures Clear(Choose(d, k, p), k) == d
  {
    assert Clear(Choose(d, k, p), k).assets == d.assets;
  }

  /** The preview groups (lines 252-260): back, forward, reload on the
      left; minimize, maximize and restore as the capabilities allow, then
      close, on the right. */
  function PreviewButtons(d: Dialog): (r: (seq<string>, seq<string>))
    ensures r.0 == ["back", "forward", "reload"]
    ensures |r.1| > 0 && r.1[|r.1| - 1] == "close"
    ensures "minimize" in r.1 <==> d.minimizable
    ensures "maximize" in r.1 <==> d.maximizable
    ensures "restore" in r.1 <==> d.maximizable
    ensures IsSubsequence(r.1, RIGHT_ORDER)
  {
    (["back", "forward", "reload"],
     (if d.minimizable then ["minimize"] else [])
     + (if d.maximizable then ["maximize", "restore"] else [])
     + ["close"])
  }

  function WithoutRestore(buttons: seq<string>): seq<string> {
    if buttons == [] then []
    else (if buttons[0] == "restore" then [] else [buttons[0]]) + WithoutRestore(buttons[1..])
  }

  /** The preview shows the generated app's titlebar, except that the
      generated one folds maximize and restore into one button. */
  lemma PreviewMatchesGeneratedTitlebar(d: Dialog, options: WindowOptions)
    requires options.minimizable == d.minimizable && options.maximizable == d.maximizable
    ensures PreviewButtons(d).0 == TitlebarButtons(options).0
    ensures WithoutRestore(PreviewButtons(d).1) == TitlebarButtons(options).1
  {
    WithoutRestoreRight(d.minimizable, d.maximizable);
  }

  lemma WithoutRestoreRight(minimizable: bool, maximizable: bool)
    ensures WithoutRestore((if minimizable then ["minimize"] else [])
                           + (if maximizable then ["maximize", "restore"] else []) + ["close"])
         == (if minimizable then ["minimize"] else []) + (if maximizable then ["maximize"] else []) + ["close"]
  {
    var a := if minimizable then ["minimize"] else [];
    var b := if maximizable then ["maximize", "restore"] else [];
    WithoutRestoreAppend(a, b + ["close"]);
    WithoutRestoreAppend(b, ["close"]);
    assert a + b + ["close"] == a + (b + ["close"]);
  }

  lemma {:induction false} WithoutRestoreAppend(x: seq<string>, y: seq<string>)
    ensures WithoutRestore(x + y) == WithoutRestore(x) + WithoutRestore(y)
  {
    if x != [] {
      assert (x + y)[1..] == x[1..] + y;
      WithoutRestoreAppend(x[1..], y);
    } else {
      assert x + y == y;
    }
  }

  /** `capsMinDisabled` and `capsMaxDisabled` in the dialog's language. */
  function CapsMinText(lang: string): string {
    if lang == "en" then "“Minimize” was disabled in custom settings."
    else "„Minimieren“ wurde in den benutzerdefinierten Einstellungen deaktiviert."
  }

  function CapsMaxText(lang: string): string {
    if lang == "en" then "“Maximize/Restore” was disabled." else "„Maximieren/Wiederherstellen“ wurde deaktiviert."
  }

  /** The notes under the preview (lines 266-286): shown only in SVG mode,
      the minimize note before the maximize note. */
  function CapsInfo(d: Dialog): (r: seq<string>)
    ensures d.mode != "svg" ==> r == []
    ensures d.mode == "svg" ==> |r| == (if d.minimizable then 0 else 1) + (if d.maximizable then 0 else 1)
    ensures !d.minimizable && d.mode == "svg" ==> r[0] == CapsMinText(d.lang)
    ensures !d.maximizable && d.mode == "svg" ==> r[|r| - 1] == CapsMaxText(d.lang)
  {
    if d.mode != "svg" then []
    else (if d.minimizable then [] else [CapsMinText(d.lang)]) + (if d.maximizable then [] else [CapsMaxText(d.lang)])
  }

  /** The payload of the save button (lines 464-471). */
  function Save(d: Dialog): (t: TitlebarSettings)
    ensures t.theme == d.theme
    ensures t.CustomTitlebar? <==> d.mode == "custom"
    ensures t.CustomTitlebar? ==> t.assets == d.assets
    ensures t.SvgTitlebar? ==> t.color == d.color
  {
    if d.mode == "custom" then CustomTitlebar(d.theme, d.assets) else SvgTitlebar(d.theme, d.color)
  }

  /** The object the main window opens the dialog with (renderer.js:571-590):
      the settings spread out, plus theme, language and capabilities. */
  function InitFor(t: TitlebarSettings, isDark: bool, lang: string, minimizable: bool, maximizable: bool): InitData {
    match t
    case SvgTitlebar(theme, color) => InitData(Some(lang), isDark, Some("svg"), Some(theme), Some(color), None, Some(minimizable), Some(maximizable))
    case CustomTitlebar(theme, assets) => InitData(Some(lang), isDark, Some("custom"), Some(theme), None, Some(assets), Some(minimizable), Some(maximizable))
  }

  /** Settings the dialog saved come back unchanged when it is reopened
      and saved again: reopening loses nothing. */
  lemma ReopenSaveRoundTrip(d0: Dialog, uiLang: string, isDark: bool, lang: string, minimizable: bool, maximizable: bool)
    requires d0.theme == "dark" || d0.theme == "light"
    requires d0.color != ""
    ensures Save(Init(uiLang, InitFor(Save(d0), isDark, lang, minimizable, maximizable))) == Save(d0)
  {
  }
}

=== FILE: url_input.dfy ===
/** The URL field of the main window (renderer.js:290-312): recognising
    something that looks like a domain, adding the `https://` scheme while
    typing, and normalising the value on blur and before a build. */
module UrlInput {
  import opened Outcomes
  import opened Text

  predicate IsLetter(c: char) {
    'a' <= c <= 'z' || 'A' <= c <= 'Z'
  }

  /** `[a-z0-9-]` under the `i` flag. */
  predicate IsLabelChar(c: char) {
    IsLetter(c) || '0' <= c <= '9' || c == '-'
  }

  /** `/^https?:\/\//i` */
  predicate HasHttpScheme(s: string) {
    StartsWithNoCase(s, "http://") || StartsWithNoCase(s, "https://")
  }

  /** `/^www\./i` */
  predicate StartsWithWww(s: string) {
    StartsWithNoCase(s, "www.")
  }

  /** The second alternative of the domain pattern matches `s[i..k]`
      (plus the following `/` or end of input): label characters in
      `s[i..j]`, a dot at `j`, at least two letters after it. */
  ghost predicate DomainMatchAt(s: string, i: int, j: int, k: int) {
    && 0 <= i < j && j + 2 < k <= |s| && s[j] == '.'
    && (forall t :: i <= t < j ==> IsLabelChar(s[t]))
    && (forall t :: j < t < k ==> IsLetter(s[t]))
    && (k == |s| || s[k] == '/')
  }

  /** `/(^www\.)|([a-z0-9-]+\.[a-z]{2,})(\/|$)/i.test(s)` read as the
      regular expression it is: some match exists. */
  ghost predicate LooksLikeDomainSpec(s: string) {
    StartsWithWww(s) || exists i, j, k :: DomainMatchAt(s, i, j, k)
  }

  /** The end of the run of letters starting at `p`. */
  function LetterEnd(s: string, p: nat): (e: nat)
    requires p <= |s|
    ensures p <= e <= |s|
    ensures forall t :: p <= t < e ==> IsLetter(s[t])
    ensures e == |s| || !IsLetter(s[e])
    decreases |s| - p
  {
    if p < |s| && IsLetter(s[p]) then LetterEnd(s, p + 1) else p
  }

  /** A dot at `j` preceded by a label character and followed by a run of
      at least two letters that ends the input or meets a `/`. */
  predicate DomainAt(s: string, j: nat) {
    1 <= j < |s| && s[j] == '.' && IsLabelChar(s[j - 1])
    && var e := LetterEnd(s, j + 1); e - (j + 1) >= 2 && (e == |s| || s[e] == '/')
  }

  predicate DomainFrom(s: string, j: nat)
    decreases |s| - j
  {
    j < |s| && (DomainAt(s, j) || DomainFrom(s, j + 1))
  }

  /** `looksLikeDomain(s)` (renderer.js:290-292), by scanning for a dot. */
  predicate LooksLikeDomain(s: string) {
    StartsWithWww(s) || DomainFrom(s, 1)
  }

  lemma {:induction false} DomainFromWitness(s: string, from: nat)
    requires DomainFrom(s, from)
    ensures exists j :: from <= j && DomainAt(s, j)
    decreases |s| - from
  {
    if !DomainAt(s, from) {
      DomainFromWitness(s, from + 1);
    }
  }

  lemma {:induction false} DomainFromComplete(s: string, from: nat, j: nat)
    requires from <= j && DomainAt(s, j)
    ensures DomainFrom(s, from)
    decreases j - from
  {
    if from < j {
      DomainFromComplete(s, from + 1, j);
    }
  }

  /** The scan decides exactly the regular expression. */
  lemma LooksLikeDomainCorrect(s: string)
    ensures LooksLikeDomain(s) <==> LooksLikeDomainSpec(s)
  {
    if DomainFrom(s, 1) {
      DomainFromWitness(s, 1);
      var j :| 1 <= j && DomainAt(s, j);
      var e := LetterEnd(s, j + 1);
      assert DomainMatchAt(s, j - 1, j, e);
    }
    if exists i, j, k :: DomainMatchAt(s, i, j, k) {
      var i, j, k :| DomainMatchAt(s, i, j, k);
      assert IsLabelChar(s[j - 1]);
      assert DomainAt(s, j);
      DomainFromComplete(s, 1, j);
    }
  }

  /** `s.replace(/^\/+/, '')` */
  function StripLeadingSlashes(s: string): (r: string)
    ensures |r| <= |s| && r == s[|s| - |r|..]
    ensures r == [] || r[0] != '/'
    ensures forall i :: 0 <= i < |s| - |r| ==> s[i] == '/'
  {
    if |s| > 0 && s[0] == '/' then StripLeadingSlashes(s[1..]) else s
  }

  /** `"https://" + s` for a scheme-less domain-looking value. */
  function WithHttps(s: string): (r: string)
    ensures HasHttpScheme(r)
    ensures IsTrimmed(s) ==> IsTrimmed(r)
  {
    var r := "https://" + StripLeadingSlashes(s);
    HttpsPrefix(StripLeadingSlashes(s));
    r
  }

  lemma HttpsPrefix(rest: string)
    ensures HasHttpScheme("https://" + rest)
  {
    StartsWithNoCaseOwn("https://", rest);
  }

  /** `normalizeUrl(raw)`, with `undefined` as the empty string. */
  function NormalizeUrl(raw: string): (r: string)
    ensures IsTrimmed(r)
    ensures r == "" <==> Trim(raw) == ""
    ensures r == Trim(raw) || r == WithHttps(Trim(raw))
  {
    var s := Trim(raw);
    TrimFixedPoint(raw);
    if s == "" then s
    else if HasHttpScheme(s) then s
    else if LooksLikeDomain(s) then WithHttps(s)
    else s
  }

  /** The normalised value carries an http(s) scheme exactly when the
      trimmed input had one or looked like a domain. */
  lemma NormalizeUrlScheme(raw: string)
    ensures HasHttpScheme(NormalizeUrl(raw)) <==>
      HasHttpScheme(Trim(raw)) || (Trim(raw) != "" && LooksLikeDomain(Trim(raw)))
  {
  }

  /** Normalising a normalised URL changes nothing, so the blur handler
      and the build both see a fixed point. */
  lemma NormalizeUrlIdempotent(raw: string)
    ensures NormalizeUrl(NormalizeUrl(raw)) == NormalizeUrl(raw)
  {
    var r := NormalizeUrl(raw);
    TrimFixedPoint(r);
    assert Trim(r) == r;
  }

  /** The URL field after one `input` event, and the selection it sets. */
  datatype InputEdit = InputEdit(changed: bool, value: string, selection: Option<(int, int)>)

  /** `ensureSchemeInInput(el)` (renderer.js:293-305). The selection
      bounds default to the new value's length when the element has none. */
  function EnsureSchemeInInput(value: string, selStart: Option<int>, selEnd: Option<int>): (r: InputEdit)
    ensures !r.changed ==> r.value == value && r.selection.None?
    ensures r.changed ==> HasHttpScheme(r.value)
    ensures r.changed <==> Trim(value) != "" && !HasHttpScheme(Trim(value)) && LooksLikeDomain(Trim(value))
    ensures r.changed ==>
      && r.selection.Some?
      && r.selection.value.0 == selStart.GetOr(|r.value|) + 8
      && r.selection.value.1 == selEnd.GetOr(|r.value|) + 8
  {
    var t := Trim(value);
    if t == "" || HasHttpScheme(t) || !LooksLikeDomain(t) then InputEdit(false, value, None)
    else
      var v := WithHttps(t);
      InputEdit(true, v, Some((selStart.GetOr(|v|) + 8, selEnd.GetOr(|v|) + 8)))
  }

  /** Typing and normalising agree: the scheme added while typing is the
      value `normalizeUrl` produces, and when typing adds nothing the
      normalised value is the trimmed field. */
  lemma EnsureSchemeAgreesWithNormalize(value: string, selStart: Option<int>, selEnd: Option<int>)
    ensures var r := EnsureSchemeInInput(value, selStart, selEnd);
      (r.changed ==> r.value == NormalizeUrl(value))
      && (!r.changed ==> NormalizeUrl(value) == Trim(value))
  {
  }
}
